=== FILE: README.md ===
# SDL console drivers for the PS4, modelled in Dafny

This project models the decision logic of three PS4 drivers of the SDL
toolkit:

- **The joystick driver.**
  - Device detection over the logged-in user slots.
  - The analog lookup table.
  - The per-port poll, which diffs the new pad reading against the
    last-seen values and emits axis, button and hat events.
  - The device name and GUID, and the capabilities reported on open.
  - Rumble, light-bar and close requests.
  - The gamepad mapping handed to the controller layer.
- **The audio driver.**
  - The block-size quantiser and the choice of port format.
  - Device open, which lays out a ring of mixing buffers in one raw buffer.
  - Play and get-buffer, which rotate the ring.
  - Close, and the one-shot latch around the vendor audio-service start.
- **The video driver.**
  - The all-or-nothing, latched loading of the system modules.
  - The single display and its modes.
  - The single-window state machine: create, destroy, resize and mode change.

Every call into the console vendor's libraries or into EGL is a parameter
(its result) or part of the output (the request the driver makes), except as
listed under "## Left out". So every operation is a pure function of the
driver's state and those results.

One module per component:

| module | file | contents |
|---|---|---|
| `Common` | `common.dfy` | fixed-width integer types, `Option`, and the signed reading of unsigned 32-bit literals |
| `PadLayout` | `pad_layout.dfy` | vendor sentinels and pad bits, the 20-entry button map, axis numbers, hat bits, the gamepad mapping |
| `JoystickState` | `joystick_state.dfy` | per-port tables, the port-index guards |
| `AnalogMap` | `analog_map.dfy` | the analog table |
| `JoystickDetect` | `joystick_detect.dfy` | device detection |
| `JoystickPoll` | `joystick_poll.dfy` | the poll |
| `JoystickDevice` | `joystick_device.dfy` | init, name, GUID, open, rumble, LED, close |
| `AudioFormat` | `audio_format.dfy` | block sizes, port formats, block bytes |
| `AudioDevice` | `audio_device.dfy` | open, buffer ring, close, init latch |
| `VideoModules` | `video_modules.dfy` | module loading |
| `VideoDisplay` | `video_display.dfy` | display and modes |
| `VideoWindow` | `video_window.dfy` | windows and surfaces |

Several constants come from headers that are not part of this model. The
values used for the vendor and toolkit constants are those of the OpenOrbis
toolchain and of SDL 2:

- `ORBIS_USER_SERVICE_MAX_LOGIN_USERS` is 4, which matches the size-4
  last-seen arrays in the poll.
- The pad button bits run from L3 = 0x2 to SQUARE = 0x8000.
- The hat bits, the audio format codes and the RGBA8888 pixel format are
  SDL's own values.

`NUM_BUFFERS` is defined in the audio driver's own header, which is not part
of this model either. The model assumes it is 2 (`AudioDevice.NumBuffers`).

The vendor sentinels are compared in the source as 32-bit unsigned literals
against `int` values. The model turns each one into the signed value that
such a comparison matches (`Common.Signed32`).

## Model

| member | source | states |
|---|---|---|
| `Common.Signed32` | src/joystick/ps4/SDL_sysjoystick.c:33-35 | the signed value is congruent to the literal modulo 2^32, lies in the 32-bit range, and is negative exactly for literals with the top bit set |
| `PadLayout.ButtonMapSingleBits` | src/joystick/ps4/SDL_sysjoystick.c:60-81 | the button map has 20 entries, and each non-placeholder entry is a single pad bit |
| `PadLayout.ButtonMapDistinct` | src/joystick/ps4/SDL_sysjoystick.c:60-81 | no pad bit appears under two button numbers |
| `PadLayout.AsWrittenSticksCollide` | src/joystick/ps4/SDL_sysjoystick.c:409-412 | as written, left and right stick share button 10, and button 11 (the only entry carrying the R3 bit) is bound to nothing |
| `PadLayout.GamepadMappingAsWritten` | src/joystick/ps4/SDL_sysjoystick.c:394-439 | the mapping as the driver writes it: every named control except the right stick reads the pad bit of its own name, the right stick reads L3 rather than R3, start reads placeholder button 9, guide is unbound, and sticks and triggers are the six axes |
| `PadLayout.Mapping` | src/joystick/ps4/SDL_sysjoystick.c:394-439 | each named control is bound to the button whose map entry is the pad bit of that name; no two controls share a button; sticks and triggers are the six axes |
| `JoystickState.AsWrittenGuardAdmitsOutOfRange` | src/joystick/ps4/SDL_sysjoystick.c:243-248 | the index check `index > MAX` lets index MAX through, and MAX is past the end of every per-port table |
| `JoystickState.CorrectedGuardAddsOnlyMax` | src/joystick/ps4/SDL_sysjoystick.c:319-324 | for non-negative indices, the in-range check refuses what the written check refuses plus exactly the index MAX |
| `AnalogMap.BuildAnalogMap` | src/joystick/ps4/SDL_sysjoystick.c:170-174 | the table holds the curve in its upper half and its reversed negation in its lower half, so entry 127-i is minus entry 128+i |
| `AnalogMap.TableMonotoneAndBounded` | src/joystick/ps4/SDL_sysjoystick.c:168-174 | a non-negative, non-decreasing curve bounded by a peak gives a non-decreasing table within [-peak, peak] |
| `JoystickDetect.DetectFrom` | src/joystick/ps4/SDL_sysjoystick.c:128-149 | from slot i on, the loop adds one per counted slot (valid user, pad not "not connected"), and writes a handle slot only on a fresh open |
| `JoystickDetect.Detect` | src/joystick/ps4/SDL_sysjoystick.c:116-150 | the count restarts at 0 and stays 0 when the user list fails; otherwise it is the number of counted slots, at most MAX; handle slots change only on fresh opens; the analog table and last-seen values are untouched |
| `JoystickDetect.AlreadyOpenedKeepsStaleHandle` | src/joystick/ps4/SDL_sysjoystick.c:139-143 | a pad reported as already open is counted but its slot keeps its old handle (0 from boot), which the poll refuses |
| `JoystickPoll.AxisSlot` | src/joystick/ps4/SDL_sysjoystick.c:38-43 | each of the six axis numbers has exactly one place in the poll order |
| `JoystickPoll.AxisEvents` | src/joystick/ps4/SDL_sysjoystick.c:265-289 | an axis motion is in the axis part exactly for the axes whose raw byte moved, each carrying the table value of the new byte; at most one event per axis, in the order LX, LY, RX, RY, L2, R2; nothing moves when the readings are equal |
| `JoystickPoll.ButtonEvents` | src/joystick/ps4/SDL_sysjoystick.c:296-299 | a button event is emitted exactly for the map entries meeting the changed bits, reports pressed exactly when the entry is held now, and comes out in increasing button order |
| `JoystickPoll.HatFrom` | src/joystick/ps4/SDL_sysjoystick.c:300-309 | each hat direction is set exactly when its d-pad entry is at or after the start and its bit changed; no other hat bits are set |
| `JoystickPoll.ButtonPhase` | src/joystick/ps4/SDL_sysjoystick.c:291-313 | no bit changed means no button or hat event; otherwise the last event is the hat event with the accumulated value; no axis events |
| `JoystickPoll.Update` | src/joystick/ps4/SDL_sysjoystick.c:227-313 | a port out of range or with a handle below 1 emits nothing and changes nothing; otherwise only that port's last-seen values change, to the new reading |
| `JoystickPoll.PollOrder` | src/joystick/ps4/SDL_sysjoystick.c:264-313 | in a poll, every axis event comes before every button or hat event, and the axis events follow the order LX, LY, RX, RY, L2, R2 |
| `JoystickPoll.PollEndsWithHat` | src/joystick/ps4/SDL_sysjoystick.c:291-312 | when some button bit changed, the last event of the poll is the hat event with the accumulated d-pad value |
| `JoystickPoll.AxisPartIff` | src/joystick/ps4/SDL_sysjoystick.c:265-289 | after the axis part, only non-axis events follow, so axis a has an event exactly when its raw byte moved, with the table value of the new byte |
| `JoystickPoll.AxisEventIff` | src/joystick/ps4/SDL_sysjoystick.c:266-289 | a poll emits a motion for axis a exactly when that port's raw byte for a differs from the new one, with value `analog_map[new]` |
| `JoystickPoll.ButtonPartIff` | src/joystick/ps4/SDL_sysjoystick.c:295-299 | button events of a poll are found in its button part alone, with the fires and pressed conditions of the map |
| `JoystickPoll.ButtonEventIff` | src/joystick/ps4/SDL_sysjoystick.c:292-299 | button i gets an event exactly when its map entry meets old XOR new, reporting pressed exactly when the entry is held in the new word |
| `JoystickPoll.PlaceholderNeverFires` | src/joystick/ps4/SDL_sysjoystick.c:67-73 | a zero (placeholder) map entry never produces a button event |
| `JoystickPoll.HatDirections` | src/joystick/ps4/SDL_sysjoystick.c:300-309 | the hat the loop builds sets DOWN, LEFT, UP, RIGHT exactly for the pad bits DOWN, LEFT, UP, RIGHT that changed |
| `JoystickPoll.HatPartIff` | src/joystick/ps4/SDL_sysjoystick.c:295-312 | the hat event is in a poll exactly when some bit changed, and then carries the accumulated hat value |
| `JoystickPoll.HatPartExists` | src/joystick/ps4/SDL_sysjoystick.c:295-312 | some hat event is present exactly when the changed word is non-zero |
| `JoystickPoll.HatEventExists` | src/joystick/ps4/SDL_sysjoystick.c:292-312 | a poll emits a hat event exactly when old XOR new is non-zero |
| `JoystickPoll.HatEventReports` | src/joystick/ps4/SDL_sysjoystick.c:300-312 | each direction of the emitted hat value is set exactly when that d-pad bit changed, pressed or released |
| `JoystickPoll.RepollIsQuiet` | src/joystick/ps4/SDL_sysjoystick.c:266-293 | polling again with the same reading emits nothing and leaves the state as it was |
| `JoystickDevice.JoystickInit` | src/joystick/ps4/SDL_sysjoystick.c:156-179 | a failed pad-service start is an error that changes nothing; otherwise the table is built mirrored, a handle is stored exactly for each pad opened afresh (every other slot keeps its handle), and the result is the detected count, at most MAX |
| `JoystickDevice.DeviceName` | src/joystick/ps4/SDL_sysjoystick.c:191-197 | no name exactly for indices above MAX, the DualShock name otherwise |
| `JoystickDevice.CopyPrefix` | src/joystick/ps4/SDL_sysjoystick.c:340-341 | a buffer of the given width holding the text's first characters, zero after the text |
| `JoystickDevice.DeviceGuid` | src/joystick/ps4/SDL_sysjoystick.c:336-343 | 16 bytes holding the start of the device name, zero padded |
| `JoystickDevice.CopyPrefixRoundTrip` | src/joystick/ps4/SDL_sysjoystick.c:340-341 | reading the copied buffer back as a C string gives the text cut to min(width, length) |
| `JoystickDevice.GuidNamesDevice` | src/joystick/ps4/SDL_sysjoystick.c:336-343 | the GUID read back as text is the first 16 characters of the device name |
| `JoystickDevice.OpenJoystick` | src/joystick/ps4/SDL_sysjoystick.c:213-220 | open reports as many buttons as map entries, 6 axes, 1 hat, and the device index as instance id |
| `JoystickDevice.EventsWithinCaps` | src/joystick/ps4/SDL_sysjoystick.c:213-313 | for every port and sample, each event the poll emits (`WithinCaps`) names an axis, button or hat below the counts reported on open |
| `JoystickDevice.Rumble` | src/joystick/ps4/SDL_sysjoystick.c:346-356 | an index outside the ports is an error with no vibration; otherwise the port's handle gets large = high/256 and small = low/256, each the unique byte whose 256-wide range holds the strength |
| `JoystickDevice.RumbleMonotone` | src/joystick/ps4/SDL_sysjoystick.c:352 | a stronger rumble request never drives a motor more weakly |
| `JoystickDevice.SetLED` | src/joystick/ps4/SDL_sysjoystick.c:371-381 | an index outside the ports is an error; otherwise the port's handle gets the requested colour at full alpha |
| `JoystickDevice.CloseJoystick` | src/joystick/ps4/SDL_sysjoystick.c:317-330 | a close request is made only for an in-range port with a handle of at least 1, for that handle |
| `JoystickDevice.CloseAgreesWithPoll` | src/joystick/ps4/SDL_sysjoystick.c:243-251 | close and poll refuse the same ports, and a refused port's poll is silent |
| `JoystickDevice.OutputsIgnoreHandle` | src/joystick/ps4/SDL_sysjoystick.c:346-381 | rumble and light bar check only the index, so a never-opened port's requests go to handle 0, which the poll would refuse |
| `AudioFormat.SampleSize` | src/audio/ps4/SDL_ps4audio.c:38-48 | the result is a multiple of 256 in [256, 2048]; for requests of at least 256 it is the largest such size not above the request; requests below 256 give 256 |
| `AudioFormat.SampleSizeKeepsSupported` | src/audio/ps4/SDL_ps4audio.c:40-47 | a supported block length is returned unchanged |
| `AudioFormat.SampleSizeIdempotent` | src/audio/ps4/SDL_ps4audio.c:38-48 | quantising twice is quantising once |
| `AudioFormat.SampleSizeMonotone` | src/audio/ps4/SDL_ps4audio.c:38-48 | a larger request never gets a smaller block |
| `AudioFormat.ChoosePortFormat` | src/audio/ps4/SDL_ps4audio.c:63-74 | only S16LSB and F32LSB have a port format; mono exactly for one channel; float exactly for F32LSB |
| `AudioFormat.BlockBytes` | src/audio/ps4/SDL_ps4audio.c:80-81 | a block is 2 bytes per sample per channel for S16, 4 for F32 |
| `AudioDevice.Layout` | src/audio/ps4/SDL_ps4audio.c:101-103 | slot k of the ring starts at k times the block size |
| `AudioDevice.OpenDevice` | src/audio/ps4/SDL_ps4audio.c:53-108 | covers every error path (no memory, unsupported format, no raw buffer, port refused) and leaves no raw buffer on any of them; on success, block length quantised, rate 48000, block bytes from format, ring laid out over a zeroed raw buffer of NUM_BUFFERS blocks, next slot 0 |
| `AudioDevice.RingPartitions` | src/audio/ps4/SDL_ps4audio.c:86-103 | each byte of the raw buffer lies in exactly one slot, and every slot lies inside the buffer |
| `AudioDevice.SlotOf` | src/audio/ps4/SDL_ps4audio.c:101-103 | a byte of the raw buffer lies in the slot its offset divided by the block size names |
| `AudioDevice.GetDeviceBuf` | src/audio/ps4/SDL_ps4audio.c:121-123 | the block handed to the mixer is the current slot, a whole block inside the raw buffer |
| `AudioDevice.PlayDevice` | src/audio/ps4/SDL_ps4audio.c:110-114 | play submits the block get-buffer returned, advances next modulo NUM_BUFFERS, keeps the ring valid and changes nothing else |
| `AudioDevice.PlayTimesAdvance` | src/audio/ps4/SDL_ps4audio.c:110-114 | after n plays next has moved n slots (mod NUM_BUFFERS), and play k submitted the slot k places after the start |
| `AudioDevice.RingCycle` | src/audio/ps4/SDL_ps4audio.c:110-114 | NUM_BUFFERS plays bring the device back to where it started, having submitted every slot, each once |
| `AudioDevice.CloseDevice` | src/audio/ps4/SDL_ps4audio.c:125-139 | a positive port handle is closed and becomes -1; the raw buffer is released; the close request is made exactly for a positive handle |
| `AudioDevice.CloseIdempotent` | src/audio/ps4/SDL_ps4audio.c:125-139 | a second close requests nothing and changes nothing |
| `AudioDevice.CloseAfterFailedOpen` | src/audio/ps4/SDL_ps4audio.c:94-98 | after a failed open, close requests nothing and changes nothing, and the ring cannot be played |
| `AudioDevice.AudioInit` | src/audio/ps4/SDL_ps4audio.c:160-187 | the vendor start runs exactly while the latch is non-zero; its status becomes the latch; the driver reports available exactly when the latch is 0 |
| `AudioDevice.StartCalledUntilSuccess` | src/audio/ps4/SDL_ps4audio.c:50-173 | from the initial latch, initialisation k calls the vendor start exactly when every earlier call failed |
| `AudioDevice.LatchStaysShut` | src/audio/ps4/SDL_ps4audio.c:166-173 | once the latch is 0 no initialisation calls the vendor start again |
| `VideoModules.FirstFailure` | src/video/ps4/SDL_ps4video.c:66-96 | the first failing step: every earlier step succeeded and this one failed, or none failed |
| `VideoModules.LoadModules` | src/video/ps4/SDL_ps4video.c:58-103 | after success nothing runs and 0 is returned; steps run in the fixed order and stop at the first failure; the latch and the splash hiding happen exactly when all five succeed |
| `VideoModules.LoadModulesLatches` | src/video/ps4/SDL_ps4video.c:62-64 | after a successful call, every later call returns 0 and runs nothing, whatever the steps would return |
| `VideoModules.StepsAfterFailureIgnored` | src/video/ps4/SDL_ps4video.c:66-96 | the outcome depends only on the steps up to the first failure |
| `VideoDisplay.VideoInit` | src/video/ps4/SDL_ps4video.c:196-227 | exactly one display is appended, with desktop and current mode 1920x1080 at 60 Hz RGBA8888 |
| `VideoDisplay.AddMode` | src/video/ps4/SDL_ps4video.c:251-259 | a mode already listed is not added again; otherwise it is appended after the existing modes |
| `VideoDisplay.GetDisplayModes` | src/video/ps4/SDL_ps4video.c:244-260 | the modes already listed stay in front; the current mode is added first if new, then 1280x720 if new; a mode already listed is never added again, and nothing else is added |
| `VideoDisplay.AddModeIdempotent` | src/video/ps4/SDL_ps4video.c:251-259 | registering a mode twice lists it once |
| `VideoDisplay.InitThenModes` | src/video/ps4/SDL_ps4video.c:203-259 | a fresh display offers exactly 1920x1080 then 1280x720, and asking again changes nothing |
| `VideoWindow.CreateWindow` | src/video/ps4/SDL_ps4video.c:283-320 | success exactly when no window is registered, EGL is loaded, allocation works and a surface is made; then the window is registered with that surface; once the registration, EGL and allocation checks pass, the native window takes the window's size even if no surface is made; every refusal leaves registration and windows alone |
| `VideoWindow.DestroyWindow` | src/video/ps4/SDL_ps4video.c:322-341 | only the registered window is acted on: its own live surface, and no other, is destroyed, its driver data cleared and the registration emptied; any other window changes nothing |
| `VideoWindow.RecreateSurface` | src/video/ps4/SDL_ps4video.c:367-376 | without a live surface nothing changes; otherwise the old surface is destroyed and the new one, made at the given size, replaces it |
| `VideoWindow.SetWindowSize` | src/video/ps4/SDL_ps4video.c:360-377 | a window with a live surface has that surface destroyed and gets a new one at its own size; only its driver data changes, so its size, the registration and every other window stay as they were; a window without one changes nothing |
| `VideoWindow.SetDisplayMode` | src/video/ps4/SDL_ps4video.c:262-281 | the focus window's live surface is destroyed and recreated at the mode's size; only its driver data changes, so its size, the registration and every other window stay as they were; the call always returns 0 |
| `VideoWindow.CreateWindowFrom` | src/video/ps4/SDL_ps4video.c:343-346 | adopting a foreign window always fails with -1 and changes nothing |
| `VideoWindow.OperationsKeepConsistent` | src/video/ps4/SDL_ps4video.c:283-376 | create, destroy, resize and mode change keep driver data on the registered window only |
| `VideoWindow.CreateDestroyCreate` | src/video/ps4/SDL_ps4video.c:289-339 | create then destroy of the same window empties the registration, so a later create with working EGL succeeds |
| `VideoWindow.SingleWindow` | src/video/ps4/SDL_ps4video.c:289-291 | while a window is registered, creating another is refused unchanged, and destroying another changes nothing |

## Left out

- The Bezier curve (`lerp`, `calc_bezier_y`) is float arithmetic. The 128 curve samples are an input of `AnalogMap.BuildAnalogMap` and `JoystickDevice.JoystickInit`.
- Vendor and EGL calls are not modelled as calls. Their results are parameters: pad open and read, the user list, audio-out open and init, module loading, and EGL surface creation. The requests the model returns as outputs are pad vibration, light bar and close, audio-out port open, output and close, and EGL surface destruction.
- The EGL make-current calls around surface recreation and window destruction are left out; the model does not track the current context.
- Log output (`SDL_Log`, the kernel log callback) is I/O.
- The trivial joystick entry points are left out:
  - the getters `PS4_JoystickGetCount` and `PS4_JoystickGetDeviceInstanceID`;
  - the stubs for player index, trigger rumble, capabilities, send effect, sensors and `PS4_JoystickQuit`.
- The `PS4_LoadModules` calls from joystick and audio initialisation are left out, since their results are ignored. Module loading itself is `VideoModules.LoadModules`.
- `PS4AUD_WaitDevice` is a blocking vendor call.
- `PS4AUD_ThreadInit` is compiled out.
- `SDL_CalculateAudioSpec` is left out, except for the block size in bytes (`AudioFormat.BlockBytes`).
- The 64-byte alignment of the raw audio buffer is not modelled.
- The private data allocated at src/audio/ps4/SDL_ps4audio.c:57 is never released by the driver; memory is not modelled.
- Video device creation and destruction, `PS4_VideoQuit`, the window stubs (title, icon, position, show, hide, raise, maximise, minimise, restore, grab) and `PS4_PumpEvents` are left out.
- GL context handling and the mouse and keyboard focus calls are left out.
- The piglet loader, the OpenGL ES pass-throughs, the shader table and the thread driver are left out.
- `VideoDisplay.AddMode`: the toolkit core re-sorts the mode list after each addition, and the model appends instead. For the two modes this driver adds, largest first, the order is the same.
- `JoystickDevice.DeviceGuid` requires an index of at most MAX. For larger indices the source passes a null name to the string-length call.
- `VideoWindow.SetDisplayMode` takes the focus window as a parameter. The source dereferences the toolkit's focus window without a null check, and a missing focus window is not modelled.
- `VideoWindow.CreateWindow`: when surface creation fails, the driver data just allocated is not freed. Memory is not modelled.
- `AudioDevice.RingCycle` states that the slots submitted in one turn are distinct only for a non-zero block size. With zero channels every slot is the same empty block.
- `JoystickPoll.AxisEvents`: axis values are the table's entries as unbounded integers. The toolkit call takes a 16-bit signed value, so the source would truncate an entry outside [-32768, 32767]. The curve is an input here, so nothing keeps it in range. With the driver's control points, the curve stays within [0, 32767]. For such a curve, `AnalogMap.TableMonotoneAndBounded` with peak 32767 keeps every entry in range.
- The per-port pad read buffer (`pads[]`) is not modelled. Each poll's reading is a parameter.

## Findings

| source | as written | input that shows it | evidently intended | confidence | as-written member | corrected member |
|---|---|---|---|---|---|---|
| src/joystick/ps4/SDL_sysjoystick.c:243 (and 319, 348, 373) | the port index is refused only when `index > ORBIS_USER_SERVICE_MAX_LOGIN_USERS` | instance id 4 passes the check and indexes `pads_handles[4]` and the size-4 last-seen arrays, one past their end | refuse every index outside `0 <= index < MAX`; poll, close, rumble and LED all use this check in the model | not executed | `JoystickState.AsWrittenGuardAdmitsOutOfRange` | `JoystickState.CorrectedGuardAddsOnlyMax` |
| src/joystick/ps4/SDL_sysjoystick.c:411-412 | the right stick is mapped to button 10 | pressing R3 raises button 11, which no control is bound to, while both stick controls read button 10 (L3) | button 11, as the button map's own comment for R3 states (line 72) | not executed | `PadLayout.AsWrittenSticksCollide` | `PadLayout.Mapping` |

=== FILE: analog_map.dfy ===
/** The lookup table from a raw 8-bit stick or trigger value to a toolkit
    axis value.  The upper half holds the response curve sampled at 128
    points; the lower half is its negated mirror image.  The curve itself is
    a cubic Bezier evaluated in floating point, so here it is an input. */
module AnalogMap {

  const CurvePoints: nat := 128
  const TableSize: nat := 256

  /** The table holds the curve in its upper half and its negation,
      reversed, in its lower half. */
  predicate Tabulates(m: seq<int>, curve: seq<int>)
    requires |curve| == CurvePoints
  {
    && |m| == TableSize
    && (forall j :: 128 <= j < 256 ==> m[j] == curve[j - 128])
    && (forall j :: 0 <= j < 128 ==> m[j] == -curve[127 - j])
  }

  /** Raw values the same distance below and above the centre map to
      opposite axis values. */
  predicate Mirrored(m: seq<int>)
    requires |m| == TableSize
  {
    forall j :: 0 <= j < 128 ==> m[j] == -m[255 - j]
  }

  /** Fills the table the way the joystick initialisation does: for each
      curve point, the upper entry first, then the mirrored lower one. */
  method BuildAnalogMap(curve: seq<int>) returns (m: seq<int>)
    requires |curve| == CurvePoints
    ensures Tabulates(m, curve)
    ensures Mirrored(m)
  {
    m := seq(TableSize, _ => 0);
    var i := 0;
    while i < 128
      invariant 0 <= i <= 128
      invariant |m| == TableSize
      invariant forall j :: 128 <= j < 128 + i ==> m[j] == curve[j - 128]
      invariant forall j :: 128 - i <= j < 128 ==> m[j] == -curve[127 - j]
    {
      m := m[i + 128 := curve[i]];
      m := m[127 - i := -m[i + 128]];
      i := i + 1;
    }
  }

  predicate NonDecreasing(s: seq<int>) {
    forall j, k :: 0 <= j < k < |s| ==> s[j] <= s[k]
  }

  /** A non-negative, non-decreasing curve bounded by `peak` gives a
      non-decreasing table within [-peak, peak]: pushing a stick further
      never moves the reported axis back, and the table's extremes are
      symmetric. */
  lemma TableMonotoneAndBounded(m: seq<int>, curve: seq<int>, peak: int)
    requires |curve| == CurvePoints
    requires Tabulates(m, curve)
    requires NonDecreasing(curve)
    requires 0 <= curve[0] && curve[127] <= peak
    ensures NonDecreasing(m)
    ensures forall j :: 0 <= j < |m| ==> -peak <= m[j] <= peak
  {
    forall j, k | 0 <= j < k < |m|
      ensures m[j] <= m[k]
    {
      if k < 128 {
        assert m[j] == -curve[127 - j] && m[k] == -curve[127 - k];
      } else if j >= 128 {
        assert m[j] == curve[j - 128] && m[k] == curve[k - 128];
      } else {
        assert curve[0] <= curve[127 - j] && curve[0] <= curve[k - 128];
      }
    }
    forall j | 0 <= j < |m|
      ensures -peak <= m[j] <= peak
    {
      if j < 128 {
        assert curve[0] <= curve[127 - j] <= curve[127];
      } else {
        assert curve[0] <= curve[j - 128] <= curve[127];
      }
    }
  }
}

=== FILE: audio_device.dfy ===
/** The audio device: opening lays out a ring of mixing buffers in one
    raw buffer and opens an audio-out port; playing submits the current
    buffer and advances the ring; closing releases the port and the raw
    buffer; driver initialisation starts the vendor audio service once.
    Vendor results (allocations, port open, service start) are inputs and
    the calls made are outputs.  Buffers are byte offsets into the raw
    buffer, whose contents are bytes. */
module AudioDevice {
  import opened Common
  import opened AudioFormat

  /** Mixing buffers in the ring. */
  const NumBuffers: nat := 2

  /** The format requested of the device; `size` is the block in bytes. */
  datatype AudioSpec = AudioSpec(format: U16, channels: Byte, samples: U16, freq: int, size: nat)

  /** The driver's private data.  `rawbuf` is None for a null pointer;
      `mixbufs` holds each ring slot's offset in the raw buffer. */
  datatype Hidden = Hidden(aout: int, rawbuf: Option<seq<Byte>>, mixbufs: seq<nat>, nextBuffer: nat)

  /** Zero-filled private data, as the open allocates it. */
  const Cleared: Hidden := Hidden(0, None, [], 0)

  /** Slot offsets for blocks of `size` bytes: slot i starts at i * size. */
  function Layout(size: nat, i: nat): (offsets: seq<nat>)
    requires i <= NumBuffers
    ensures |offsets| == NumBuffers - i
    ensures forall k :: 0 <= k < |offsets| ==> offsets[k] == (i + k) * size
    decreases NumBuffers - i
  {
    if i == NumBuffers then [] else [i * size] + Layout(size, i + 1)
  }

  /** The ring over a raw buffer of `size`-byte blocks: one slot per
      buffer, each slot a whole block of the raw buffer, next in range. */
  predicate Ring(h: Hidden, size: nat) {
    && h.rawbuf.Some?
    && |h.rawbuf.value| == size * NumBuffers
    && |h.mixbufs| == NumBuffers
    && (forall k :: 0 <= k < NumBuffers ==> h.mixbufs[k] == k * size)
    && h.nextBuffer < NumBuffers
  }

  /** The port open request: block length, rate, format. */
  datatype PortRequest = PortRequest(samples: U16, rate: nat, format: PortFormat)

  /** The result of an open: the return code, the (possibly adjusted)
      spec, the private data if it was allocated, and the port request if
      one was made. */
  datatype Opened = Opened(result: int, spec: AudioSpec, hidden: Option<Hidden>, port: Option<PortRequest>)

  /** Opening the device.  `hiddenOk` and `rawOk` say whether the two
      allocations succeed; `aoutResult` is what the port open returns. */
  function OpenDevice(spec: AudioSpec, hiddenOk: bool, rawOk: bool, aoutResult: int): (r: Opened)
    // out of memory for the private data
    ensures !hiddenOk ==> r == Opened(ErrorResult, spec, None, None)
    // a format the port cannot play: error, spec untouched, no port
    ensures hiddenOk && ChoosePortFormat(spec.format, spec.channels).None? ==>
              r == Opened(ErrorResult, spec, Some(Cleared), None)
    // every other path fixes the block length, the rate and the block size
    ensures hiddenOk && ChoosePortFormat(spec.format, spec.channels).Some? ==>
              && r.spec.samples == SampleSize(spec.samples)
              && r.spec.freq == OutputRate
              && r.spec.size == BlockBytes(spec.format, spec.channels, r.spec.samples)
              && r.spec.format == spec.format && r.spec.channels == spec.channels
    // the port is asked for exactly when the raw buffer was allocated
    ensures r.port.Some? <==> hiddenOk && rawOk && ChoosePortFormat(spec.format, spec.channels).Some?
    ensures r.port.Some? ==>
              r.port.value == PortRequest(r.spec.samples, OutputRate, ChoosePortFormat(spec.format, spec.channels).value)
    // success exactly when the port opened with a positive handle
    ensures r.result == 0 <==> r.port.Some? && aoutResult >= 1
    ensures r.result != 0 ==> r.result == ErrorResult
    ensures r.result == 0 ==>
              && r.hidden.Some?
              && Ring(r.hidden.value, r.spec.size)
              && r.hidden.value.nextBuffer == 0
              && r.hidden.value.aout == aoutResult
              && (forall p :: 0 <= p < |r.hidden.value.rawbuf.value| ==> r.hidden.value.rawbuf.value[p] == 0)
    // every failure after the private data exists leaves no raw buffer
    ensures r.result != 0 && r.hidden.Some? ==> r.hidden.value.rawbuf.None?
  {
    if !hiddenOk then Opened(ErrorResult, spec, None, None)
    else
      var fmt := ChoosePortFormat(spec.format, spec.channels);
      if fmt.None? then Opened(ErrorResult, spec, Some(Cleared), None)
      else
        var samples := SampleSize(spec.samples);
        var spec' := spec.(samples := samples, freq := OutputRate,
                           size := BlockBytes(spec.format, spec.channels, samples));
        var mixLen := spec'.size * NumBuffers;
        if !rawOk then Opened(ErrorResult, spec', Some(Cleared), None)
        else
          var request := PortRequest(samples, OutputRate, fmt.value);
          if aoutResult < 1 then
            Opened(ErrorResult, spec', Some(Cleared.(aout := aoutResult)), Some(request))
          else
            var h := Hidden(aoutResult, Some(seq(mixLen, _ => 0)), Layout(spec'.size, 0), 0);
            Opened(0, spec', Some(h), Some(request))
  }

  /** The ring's slots partition the raw buffer: each byte lies in exactly
      one slot, and every slot lies inside the buffer. */
  lemma RingPartitions(h: Hidden, size: nat, p: nat)
    requires Ring(h, size)
    requires p < |h.rawbuf.value|
    ensures exists k :: 0 <= k < NumBuffers && h.mixbufs[k] <= p < h.mixbufs[k] + size
    ensures forall k, l :: (0 <= k < NumBuffers && 0 <= l < NumBuffers &&
              h.mixbufs[k] <= p < h.mixbufs[k] + size && h.mixbufs[l] <= p < h.mixbufs[l] + size) ==> k == l
    ensures forall k :: 0 <= k < NumBuffers ==> h.mixbufs[k] + size <= |h.rawbuf.value|
  {
    var k := SlotOf(p, size);
    assert h.mixbufs[k] <= p < h.mixbufs[k] + size;
    forall k, l | 0 <= k < l < NumBuffers
      ensures h.mixbufs[k] + size <= h.mixbufs[l]
    {
      SlotsOrdered(k, l, size);
    }
    forall k | 0 <= k < NumBuffers
      ensures h.mixbufs[k] + size <= |h.rawbuf.value|
    {
      SlotsOrdered(k, NumBuffers, size);
    }
  }

  /** The slot holding byte p of a raw buffer of NumBuffers blocks. */
  function SlotOf(p: nat, size: nat): (k: nat)
    requires p < size * NumBuffers
    ensures k < NumBuffers && k * size <= p < k * size + size
  {
    p / size
  }

  /** Blocks further along the ring start after earlier ones end. */
  lemma {:induction false} SlotsOrdered(k: nat, l: nat, size: nat)
    requires k < l
    ensures k * size + size <= l * size
    decreases l - k
  {
    NextSlot(l - 1, size);
    if k < l - 1 {
      SlotsOrdered(k, l - 1, size);
    }
  }

  /** Slot k + 1 starts one block after slot k. */
  lemma NextSlot(k: nat, size: nat)
    ensures (k + 1) * size == k * size + size
  {
  }

  /** The block the mixer fills next: the current ring slot, a whole block
      of the raw buffer. */
  function GetDeviceBuf(h: Hidden, size: nat): (offset: nat)
    requires Ring(h, size)
    ensures offset == h.nextBuffer * size
    ensures offset + size <= |h.rawbuf.value|
  {
    h.mixbufs[h.nextBuffer]
  }

  /** A block handed to the port: the port handle and the block's offset. */
  datatype Output = Output(port: int, offset: nat)

  datatype Played = Played(hidden: Hidden, output: Output)

  /** Playing: the block the mixer just filled goes to the port and the
      ring moves on to the next slot, wrapping after the last. */
  function PlayDevice(h: Hidden, size: nat): (r: Played)
    requires Ring(h, size)
    ensures Ring(r.hidden, size)
    ensures r.output == Output(h.aout, GetDeviceBuf(h, size))
    ensures r.hidden.nextBuffer == (h.nextBuffer + 1) % NumBuffers
    ensures r.hidden == h.(nextBuffer := r.hidden.nextBuffer)
  {
    var buf := h.mixbufs[h.nextBuffer];
    Played(h.(nextBuffer := (h.nextBuffer + 1) % NumBuffers), Output(h.aout, buf))
  }

  /** `n` plays in a row: the blocks submitted, in order, and the final
      private data. */
  function PlayTimes(h: Hidden, size: nat, n: nat): (r: (Hidden, seq<Output>))
    requires Ring(h, size)
    ensures Ring(r.0, size) && |r.1| == n
    decreases n
  {
    if n == 0 then (h, [])
    else
      var p := PlayDevice(h, size);
      var rest := PlayTimes(p.hidden, size, n - 1);
      (rest.0, [p.output] + rest.1)
  }

  /** Advancing one slot and then k more is advancing k + 1. */
  lemma AdvanceMod(a: nat, k: nat)
    ensures ((a + 1) % NumBuffers + k) % NumBuffers == (a + 1 + k) % NumBuffers
  {
  }

  /** After n plays the ring has advanced n slots, and the k-th play
      submitted the slot k places after the start. */
  lemma {:induction false} PlayTimesAdvance(h: Hidden, size: nat, n: nat)
    requires Ring(h, size)
    ensures PlayTimes(h, size, n).0 == h.(nextBuffer := (h.nextBuffer + n) % NumBuffers)
    ensures forall k :: 0 <= k < n ==>
              PlayTimes(h, size, n).1[k] == Output(h.aout, ((h.nextBuffer + k) % NumBuffers) * size)
    decreases n
  {
    if n > 0 {
      var p := PlayDevice(h, size);
      PlayTimesAdvance(p.hidden, size, n - 1);
      var outs := PlayTimes(h, size, n).1;
      forall k | 0 <= k < n
        ensures outs[k] == Output(h.aout, ((h.nextBuffer + k) % NumBuffers) * size)
      {
        if k > 0 {
          assert outs[k] == PlayTimes(p.hidden, size, n - 1).1[k - 1];
          AdvanceMod(h.nextBuffer, k - 1);
        }
      }
      AdvanceMod(h.nextBuffer, n - 1);
    }
  }

  /** A full turn of the ring: after NumBuffers plays the private data is
      back where it started, and each slot was submitted exactly once. */
  lemma RingCycle(h: Hidden, size: nat)
    requires Ring(h, size)
    ensures PlayTimes(h, size, NumBuffers).0 == h
    ensures forall k :: 0 <= k < NumBuffers ==>
              Output(h.aout, h.mixbufs[k]) in PlayTimes(h, size, NumBuffers).1
    ensures forall i, j :: 0 <= i < j < NumBuffers ==>
              PlayTimes(h, size, NumBuffers).1[i] != PlayTimes(h, size, NumBuffers).1[j] || size == 0
  {
    PlayTimesAdvance(h, size, NumBuffers);
    var outs := PlayTimes(h, size, NumBuffers).1;
    forall k | 0 <= k < NumBuffers
      ensures Output(h.aout, h.mixbufs[k]) in outs
    {
      var j := (k - h.nextBuffer + NumBuffers) % NumBuffers;
      assert (h.nextBuffer + j) % NumBuffers == k;
      assert outs[j] == Output(h.aout, h.mixbufs[k]);
    }
  }

  datatype Closed = Closed(hidden: Hidden, closePort: Option<int>)

  /** Closing: a positive port handle is closed and replaced by -1; a raw
      buffer is released and the pointer cleared. */
  function CloseDevice(h: Hidden): (r: Closed)
    ensures r.closePort.Some? <==> h.aout > 0
    ensures r.closePort.Some? ==> r.closePort.value == h.aout
    ensures r.hidden.aout == (if h.aout > 0 then -1 else h.aout)
    ensures r.hidden.aout <= 0 && r.hidden.rawbuf.None?
    ensures r.hidden.mixbufs == h.mixbufs && r.hidden.nextBuffer == h.nextBuffer
  {
    Closed(h.(aout := if h.aout > 0 then -1 else h.aout, rawbuf := None), if h.aout > 0 then Some(h.aout) else None)
  }

  /** A second close finds nothing to release. */
  lemma CloseIdempotent(h: Hidden)
    ensures CloseDevice(CloseDevice(h).hidden) == Closed(CloseDevice(h).hidden, None)
  {
  }

  /** After a failed open there is nothing to close, and after any close
      the ring can no longer be played. */
  lemma CloseAfterFailedOpen(spec: AudioSpec, hiddenOk: bool, rawOk: bool, aoutResult: int, size: nat)
    requires OpenDevice(spec, hiddenOk, rawOk, aoutResult).result != 0
    requires OpenDevice(spec, hiddenOk, rawOk, aoutResult).hidden.Some?
    ensures var h := OpenDevice(spec, hiddenOk, rawOk, aoutResult).hidden.value;
            CloseDevice(h) == Closed(h, None) && !Ring(CloseDevice(h).hidden, size)
  {
  }

  /** The vendor audio-service latch: all bits set before the first
      start, and the start call's status afterwards. */
  const LatchUnset: U32 := 0xFFFF_FFFF

  datatype InitStep = InitStep(latch: U32, result: int, started: bool)

  /** Driver initialisation: the vendor start is called only while the
      latch is non-zero, its status becomes the latch, and a non-zero status
      is an error.  The driver is available (1) otherwise. */
  function AudioInit(latch: U32, vendorStatus: U32): (r: InitStep)
    ensures r.started <==> latch != 0
    ensures r.latch == (if latch != 0 then vendorStatus else 0)
    ensures r.result == (if r.latch == 0 then 1 else ErrorResult)
  {
    if latch != 0 then
      InitStep(vendorStatus, if vendorStatus != 0 then ErrorResult else 1, true)
    else InitStep(0, 1, false)
  }

  /** Which of a run of initialisations call the vendor start, given the
      status each call would return. */
  function StartCalls(latch: U32, statuses: seq<U32>): (calls: seq<bool>)
    ensures |calls| == |statuses|
    decreases |statuses|
  {
    if statuses == [] then []
    else
      var step := AudioInit(latch, statuses[0]);
      [step.started] + StartCalls(step.latch, statuses[1..])
  }

  /** From the unset latch, initialisation number k calls the vendor start
      exactly when every earlier call failed: it is retried after failures
      and never called again after a success. */
  lemma {:induction false} StartCalledUntilSuccess(latch: U32, statuses: seq<U32>, k: nat)
    requires latch != 0
    requires k < |statuses|
    ensures StartCalls(latch, statuses)[k] <==> forall j :: 0 <= j < k ==> statuses[j] != 0
    decreases k
  {
    var step := AudioInit(latch, statuses[0]);
    if k > 0 {
      if statuses[0] != 0 {
        StartCalledUntilSuccess(step.latch, statuses[1..], k - 1);
        assert forall j :: 0 <= j < k - 1 ==> statuses[1..][j] == statuses[j + 1];
      } else {
        LatchStaysShut(statuses[1..], k - 1);
      }
    }
  }

  /** Once the latch is zero no call starts the vendor service. */
  lemma {:induction false} LatchStaysShut(statuses: seq<U32>, k: nat)
    requires k < |statuses|
    ensures !StartCalls(0, statuses)[k]
    decreases k
  {
    if k > 0 {
      LatchStaysShut(statuses[1..], k - 1);
    }
  }
}

=== FILE: audio_format.dfy ===
/** The audio driver's format decisions: the block sizes the audio-out
    port accepts, the quantiser that rounds a requested block onto them,
    the sample formats the port can play, and the byte size of one block. */
module AudioFormat {
  import opened Common

  /* Toolkit sample-format codes: the low byte is the bit size. */
  const AudioS16LSB: U16 := 0x8010
  const AudioF32LSB: U16 := 0x8120

  /** The only rate the port is opened at. */
  const OutputRate: nat := 48000

  /** Block lengths (sample frames) the port accepts: the multiples of 256
      from 256 to 2048. */
  predicate SupportedBlock(n: int) {
    256 <= n <= 2048 && n % 256 == 0
  }

  /** The block length actually used for a requested one: the largest
      supported length not above the request, and 256 for requests below
      256. */
  function SampleSize(size: U16): (r: U16)
    ensures SupportedBlock(r)
    ensures size >= 256 ==> r <= size
    ensures size < 256 ==> r == 256
    ensures forall b :: SupportedBlock(b) && b <= size ==> b <= r
  {
    if size >= 2048 then 2048
    else if size >= 1792 then 1792
    else if size >= 1536 then 1536
    else if size >= 1280 then 1280
    else if size >= 1024 then 1024
    else if size >= 768 then 768
    else if size >= 512 then 512
    else 256
  }

  /** A supported length is kept as it is. */
  lemma SampleSizeKeepsSupported(n: U16)
    requires SupportedBlock(n)
    ensures SampleSize(n) == n
  {
  }

  /** Quantising twice is quantising once. */
  lemma SampleSizeIdempotent(size: U16)
    ensures SampleSize(SampleSize(size)) == SampleSize(size)
  {
    SampleSizeKeepsSupported(SampleSize(size));
  }

  /** A larger request never gets a smaller block. */
  lemma SampleSizeMonotone(a: U16, b: U16)
    requires a <= b
    ensures SampleSize(a) <= SampleSize(b)
  {
    if b >= 256 {
      assert SupportedBlock(SampleSize(a)) && SampleSize(a) <= b;
    }
  }

  /** The port's sample formats. */
  datatype PortFormat = S16Mono | S16Stereo | FloatMono | FloatStereo
  {
    predicate Mono() { this == S16Mono || this == FloatMono }
    predicate Float() { this == FloatMono || this == FloatStereo }
  }

  /** The port format for a toolkit format and channel count: none for a
      format other than signed 16-bit or 32-bit float little-endian; mono
      exactly for one channel, stereo for any other count. */
  function ChoosePortFormat(format: U16, channels: nat): (r: Option<PortFormat>)
    ensures r.Some? <==> format == AudioS16LSB || format == AudioF32LSB
    ensures r.Some? ==> (r.value.Mono() <==> channels == 1)
    ensures r.Some? ==> (r.value.Float() <==> format == AudioF32LSB)
  {
    if format == AudioS16LSB then Some(if channels == 1 then S16Mono else S16Stereo)
    else if format == AudioF32LSB then Some(if channels == 1 then FloatMono else FloatStereo)
    else None
  }

  /** Bits per sample, the low byte of a format code. */
  function BitSize(format: U16): nat {
    format % 0x100
  }

  /** Bytes in one block: bytes per sample, times channels, times frames. */
  function BlockBytes(format: U16, channels: nat, samples: nat): (n: nat)
    ensures format == AudioS16LSB ==> n == 2 * channels * samples
    ensures format == AudioF32LSB ==> n == 4 * channels * samples
  {
    BitSize(format) / 8 * channels * samples
  }
}

=== FILE: common.dfy ===
/** Fixed-width C integer types the console drivers work with, and an
    option type that stands for a C pointer that may be NULL. */
module Common {

  type Byte = x: int | 0 <= x < 0x100
  type U16 = x: int | 0 <= x < 0x1_0000
  type U32 = x: int | 0 <= x < 0x1_0000_0000

  datatype Option<+T> = None | Some(value: T)

  /** What the toolkit's error setter returns, and so every driver entry
      point that reports an error. */
  const ErrorResult: int := -1

  /** The `int` whose 32-bit two's-complement pattern is `u`.  Comparing a
      signed `int` with an unsigned hex literal in C converts the `int` to
      unsigned, so the comparison succeeds exactly for this value. */
  function Signed32(u: U32): (r: int)
    ensures -0x8000_0000 <= r < 0x8000_0000
    ensures r % 0x1_0000_0000 == u
    ensures r < 0 <==> u >= 0x8000_0000
  {
    if u < 0x8000_0000 then u else u - 0x1_0000_0000
  }
}

=== FILE: joystick_detect.dfy ===
/** Device detection: walk the logged-in user slots, open a pad for each
    valid user, and count the pads that answered.  The user list and the
    pad-open results are what the vendor services returned. */
module JoystickDetect {
  import opened Common
  import opened PadLayout
  import opened JoystickState

  /** Slot i holds a logged-in user whose pad is connected (opened now or
      earlier). */
  predicate Counted(ids: seq<int>, opens: seq<int>, i: nat)
    requires i < |ids| && i < |opens|
  {
    ids[i] != UserIdInvalid && opens[i] != PadErrorNotConnected
  }

  /** Slot i's pad was opened by this detection, so its handle is new. */
  predicate FreshOpen(ids: seq<int>, opens: seq<int>, i: nat)
    requires i < |ids| && i < |opens|
  {
    Counted(ids, opens, i) && opens[i] != PadErrorAlreadyOpened
  }

  /** The counted slots from `from` on. */
  function CountedFrom(ids: seq<int>, opens: seq<int>, from: nat): set<nat>
    requires |ids| == MaxLoginUsers && |opens| == MaxLoginUsers
  {
    set i: nat | from <= i < MaxLoginUsers && Counted(ids, opens, i)
  }

  /** Peeling slot i off the counted slots from i. */
  lemma CountedFromStep(ids: seq<int>, opens: seq<int>, i: nat)
    requires |ids| == MaxLoginUsers && |opens| == MaxLoginUsers
    requires i < MaxLoginUsers
    ensures |CountedFrom(ids, opens, i)| ==
            (if Counted(ids, opens, i) then 1 else 0) + |CountedFrom(ids, opens, i + 1)|
  {
    var rest := CountedFrom(ids, opens, i + 1);
    if Counted(ids, opens, i) {
      assert CountedFrom(ids, opens, i) == {i} + rest;
    } else {
      assert CountedFrom(ids, opens, i) == rest;
    }
  }

  datatype Detected = Detected(handles: seq<int>, count: nat)

  /** The detection loop from slot i on, with the handles and count so far. */
  function DetectFrom(ids: seq<int>, opens: seq<int>, i: nat, handles: seq<int>, count: nat): (r: Detected)
    requires |ids| == MaxLoginUsers && |opens| == MaxLoginUsers && |handles| == MaxLoginUsers
    requires i <= MaxLoginUsers
    ensures |r.handles| == MaxLoginUsers
    ensures r.count == count + |CountedFrom(ids, opens, i)|
    ensures r.count <= count + (MaxLoginUsers - i)
    ensures forall j :: 0 <= j < MaxLoginUsers ==>
              r.handles[j] == if i <= j && FreshOpen(ids, opens, j) then opens[j] else handles[j]
    decreases MaxLoginUsers - i
  {
    if i == MaxLoginUsers then
      assert CountedFrom(ids, opens, i) == {};
      Detected(handles, count)
    else
      CountedFromStep(ids, opens, i);
      if ids[i] == UserIdInvalid then DetectFrom(ids, opens, i + 1, handles, count)
      else if opens[i] == PadErrorNotConnected then DetectFrom(ids, opens, i + 1, handles, count)
      else if opens[i] == PadErrorAlreadyOpened then DetectFrom(ids, opens, i + 1, handles, count + 1)
      else DetectFrom(ids, opens, i + 1, handles[i := opens[i]], count + 1)
  }

  /** One detection.  `listStatus` is the user-list call's return code,
      `ids` the user list, and `opens[i]` the pad-open result for slot i
      (consulted only when ids[i] is a valid user). */
  function Detect(s: JoyState, listStatus: int, ids: seq<int>, opens: seq<int>): (r: JoyState)
    requires s.Valid()
    requires |ids| == MaxLoginUsers && |opens| == MaxLoginUsers
    ensures r.Valid()
    ensures r.analog == s.analog && r.last == s.last
    // a failed user list leaves the count at zero and the handles alone
    ensures listStatus != 0 ==> r.count == 0 && r.handles == s.handles
    // otherwise the count is the number of connected users' slots
    ensures listStatus == 0 ==> r.count == |CountedFrom(ids, opens, 0)|
    ensures r.count <= MaxLoginUsers
    // only a fresh open writes a handle slot
    ensures forall j :: 0 <= j < MaxLoginUsers ==>
              r.handles[j] == if listStatus == 0 && FreshOpen(ids, opens, j) then opens[j] else s.handles[j]
  {
    if listStatus != 0 then
      s.(count := 0)
    else
      var d := DetectFrom(ids, opens, 0, s.handles, 0);
      s.(handles := d.handles, count := d.count)
  }

  /** A pad reported as already open is counted, but its slot keeps
      whatever handle it had; from the boot state that is 0, which the poll
      refuses, so such a joystick is counted yet never reports input. */
  lemma AlreadyOpenedKeepsStaleHandle(ids: seq<int>, opens: seq<int>, i: nat)
    requires |ids| == MaxLoginUsers && |opens| == MaxLoginUsers
    requires i < MaxLoginUsers
    requires ids[i] != UserIdInvalid && opens[i] == PadErrorAlreadyOpened
    ensures Counted(ids, opens, i)
    ensures i in CountedFrom(ids, opens, 0)
    ensures Detect(Boot, 0, ids, opens).handles[i] == 0
  {
  }
}

=== FILE: joystick_device.dfy ===
/** The joystick driver's entry points around the poll: initialisation,
    the device name and GUID, the capabilities reported on open, and the
    rumble, light-bar and close requests sent to the pad service.  Vendor
    calls are results passed in (pad-service initialisation, detection
    inputs) or requests handed back (vibration, light bar, close). */
module JoystickDevice {
  import opened Common
  import opened PadLayout
  import opened JoystickState
  import opened AnalogMap
  import opened JoystickDetect
  import opened JoystickPoll

  /** Initialisation: a failed pad-service start is an error and changes
      nothing; otherwise the analog table is built from the response curve,
      the ports are detected, and the joystick count is returned. */
  method JoystickInit(s: JoyState, padInitStatus: int, curve: seq<int>,
                      listStatus: int, ids: seq<int>, opens: seq<int>)
    returns (s': JoyState, result: int)
    requires s.Valid()
    requires |curve| == CurvePoints
    requires |ids| == MaxLoginUsers && |opens| == MaxLoginUsers
    ensures s'.Valid()
    ensures padInitStatus != 0 ==> result == ErrorResult && s' == s
    ensures padInitStatus == 0 ==>
              && result == s'.count
              && Tabulates(s'.analog, curve)
              && Mirrored(s'.analog)
              && s'.last == s.last
              && s'.count == (if listStatus == 0 then |CountedFrom(ids, opens, 0)| else 0)
    // detection writes a handle exactly for each pad it opened afresh
    ensures padInitStatus == 0 ==>
              forall j :: 0 <= j < MaxLoginUsers ==>
                s'.handles[j] == if listStatus == 0 && FreshOpen(ids, opens, j) then opens[j] else s.handles[j]
    ensures padInitStatus == 0 ==> 0 <= result <= MaxLoginUsers
  {
    if padInitStatus != 0 {
      return s, ErrorResult;
    }
    var m := BuildAnalogMap(curve);
    s' := Detect(s.(analog := m), listStatus, ids, opens);
    result := s'.count;
  }

  /** The device name: none for indices above the port count (the same
      check as the driver's other index guards), the DualShock name for
      every other index. */
  const PadName: string := "Sony DualShock 4 V2"

  function DeviceName(index: int): (r: Option<string>)
    ensures r.None? <==> RejectsAsWritten(index)
    ensures r.Some? ==> r.value == PadName
  {
    if index > MaxLoginUsers then None else Some(PadName)
  }

  /** Text every character of which fits in one byte and which holds no
      NUL, so a C string copy sees all of it. */
  predicate CText(text: string) {
    forall k :: 0 <= k < |text| ==> 0 < text[k] as int < 0x100
  }

  lemma PadNameIsCText()
    ensures CText(PadName) && |PadName| == 19
  {
  }

  /** `buffer` holds the text's first characters, zero padded. */
  predicate PaddedCopy(buffer: seq<Byte>, text: string) {
    && (forall k :: 0 <= k < |buffer| && k < |text| ==> buffer[k] == text[k] as int)
    && (forall k :: |text| <= k < |buffer| ==> buffer[k] == 0)
  }

  /** `width` bytes holding the text's first characters, zero padded. */
  function CopyPrefix(text: string, width: nat): (r: seq<Byte>)
    requires CText(text)
    ensures |r| == width
    ensures PaddedCopy(r, text)
    decreases width
  {
    if width == 0 then []
    else if text == [] then [0] + CopyPrefix(text, width - 1)
    else [text[0] as int] + CopyPrefix(text[1..], width - 1)
  }

  const GuidSize: nat := 16

  /** The device GUID: the first min(16, length) bytes of the device name,
      the rest zero.  A null name (index above the port count) would reach
      the string-length call, so such indices are excluded. */
  function DeviceGuid(index: int): (g: seq<Byte>)
    requires !RejectsAsWritten(index)
    ensures |g| == GuidSize
    ensures PaddedCopy(g, PadName)
  {
    PadNameIsCText();
    CopyPrefix(DeviceName(index).value, GuidSize)
  }

  /** The text a zero-terminated byte buffer holds. */
  function TextOf(bytes: seq<Byte>): (t: string)
    ensures |t| <= |bytes|
    ensures forall k :: 0 <= k < |t| ==> t[k] as int == bytes[k] && bytes[k] != 0
  {
    if bytes == [] || bytes[0] == 0 then [] else [bytes[0] as char] + TextOf(bytes[1..])
  }

  function Min(a: nat, b: nat): nat {
    if a < b then a else b
  }

  /** Reading the copied buffer back as a C string gives the text cut to
      the buffer's width. */
  lemma {:induction false} CopyPrefixRoundTrip(text: string, width: nat)
    requires CText(text)
    ensures TextOf(CopyPrefix(text, width)) == text[..Min(|text|, width)]
    decreases width
  {
    if width > 0 && text != [] {
      var tail := CopyPrefix(text[1..], width - 1);
      assert CopyPrefix(text, width) == [text[0] as int] + tail;
      CopyPrefixRoundTrip(text[1..], width - 1);
      TextOfCons(text[0] as int, tail);
      assert (text[0] as int) as char == text[0];
      TakeCons(text, Min(|text|, width));
    }
  }

  /** A non-zero first byte is the text's first character. */
  lemma TextOfCons(b: Byte, tail: seq<Byte>)
    requires b != 0
    ensures TextOf([b] + tail) == [b as char] + TextOf(tail)
  {
    assert ([b] + tail)[1..] == tail;
  }

  /** Taking n > 0 characters is the first one and n - 1 of the rest. */
  lemma TakeCons(text: string, n: nat)
    requires 0 < n <= |text|
    ensures text[..n] == [text[0]] + text[1..][..n - 1]
  {
  }

  /** The GUID read back as text is the first sixteen characters of the
      device name. */
  lemma GuidNamesDevice(index: int)
    requires !RejectsAsWritten(index)
    ensures TextOf(DeviceGuid(index)) == PadName[..GuidSize]
  {
    PadNameIsCText();
    CopyPrefixRoundTrip(PadName, GuidSize);
  }

  /** What opening a joystick reports to the toolkit. */
  datatype Caps = Caps(nbuttons: nat, naxes: nat, nhats: nat, instance: int)

  function OpenJoystick(deviceIndex: int): (c: Caps)
    ensures c.nbuttons == |ButtonMap| && c.naxes == AxisCount && c.nhats == 1
    ensures c.instance == deviceIndex
  {
    Caps(ButtonCount, AxisCount, 1, deviceIndex)
  }

  /** The event names an axis, button or hat the capabilities declare. */
  predicate WithinCaps(e: Event, c: Caps) {
    match e
    case AxisMotion(a, _) => a < c.naxes
    case ButtonChange(b, _) => b < c.nbuttons
    case HatChange(h, _) => h < c.nhats
  }

  /** Every event a poll emits names an axis, button or hat the opened
      joystick declared. */
  lemma EventsWithinCaps(s: JoyState, index: int, now: PadSample)
    requires s.Valid()
    ensures forall e :: e in Update(s, index, now).events ==> WithinCaps(e, OpenJoystick(index))
  {
    if Polled(s, index) {
      PollEvents(s, index, now);
      PartsWithinCaps(AxisEvents(s.last[index], now, s.analog, 0),
                      s.last[index].buttons ^ now.buttons, now.buttons, OpenJoystick(index));
    }
  }

  /** The axis part followed by the button part stays within the declared
      counts. */
  lemma PartsWithinCaps(axisPart: seq<Event>, changed: bv32, buttons: bv32, c: Caps)
    requires forall e :: e in axisPart ==> e.AxisMotion? && IsAxis(e.axis)
    requires c.nbuttons == |ButtonMap| && c.naxes == AxisCount && c.nhats == 1
    ensures forall e :: e in axisPart + ButtonPhase(changed, buttons) ==> WithinCaps(e, c)
  {
    if changed != 0 {
      var buttonPart := ButtonEvents(changed, buttons, 0);
      assert ButtonPhase(changed, buttons) == buttonPart + [HatChange(0, HatFrom(changed, 0))];
      assert forall e :: e in buttonPart ==> WithinCaps(e, c);
    }
  }

  /** Requests the driver hands to the pad service. */
  datatype PadRequest =
    | Vibrate(handle: int, large: Byte, small: Byte)
    | LightBar(handle: int, red: Byte, green: Byte, blue: Byte, alpha: Byte)
    | ClosePad(handle: int)

  /** Rumble: the high-frequency strength drives the large motor and the
      low-frequency one the small motor, each scaled from 16 to 8 bits.
      An index outside the ports is an error and sends nothing. */
  function Rumble(s: JoyState, index: int, low: U16, high: U16): (r: Option<PadRequest>)
    requires s.Valid()
    ensures r.None? <==> !ValidIndex(index)
    ensures r.Some? ==>
              && r.value.Vibrate?
              && r.value.handle == s.handles[index]
              && r.value.large * 256 <= high < r.value.large * 256 + 256
              && r.value.small * 256 <= low < r.value.small * 256 + 256
  {
    if !ValidIndex(index) then None
    else Some(Vibrate(s.handles[index], high / 256, low / 256))
  }

  /** Rumble strengths are monotone: a stronger request never drives a
      motor more weakly. */
  lemma RumbleMonotone(s: JoyState, index: int, low: U16, high: U16, low': U16, high': U16)
    requires s.Valid() && ValidIndex(index)
    requires low <= low' && high <= high'
    ensures Rumble(s, index, low, high).value.large <= Rumble(s, index, low', high').value.large
    ensures Rumble(s, index, low, high).value.small <= Rumble(s, index, low', high').value.small
  {
  }

  /** The light bar takes the requested colour at full alpha; an index
      outside the ports is an error and sends nothing. */
  function SetLED(s: JoyState, index: int, red: Byte, green: Byte, blue: Byte): (r: Option<PadRequest>)
    requires s.Valid()
    ensures r.None? <==> !ValidIndex(index)
    ensures r.Some? ==> r.value == LightBar(s.handles[index], red, green, blue, 0xFF)
  {
    if !ValidIndex(index) then None
    else Some(LightBar(s.handles[index], red, green, blue, 0xFF))
  }

  /** Closing asks the pad service to close the port's handle, only for a
      port whose index is in range and whose handle is valid.  The handle
      table itself is left as it was. */
  function CloseJoystick(s: JoyState, index: int): (r: Option<PadRequest>)
    requires s.Valid()
    ensures r.Some? ==> ValidIndex(index) && r.value == ClosePad(s.handles[index]) && r.value.handle >= 1
  {
    if !ValidIndex(index) || s.handles[index] < 1 then None
    else Some(ClosePad(s.handles[index]))
  }

  /** Close and poll refuse the same ports: a port that can be closed is
      exactly one a poll reads, and a refused port's poll is silent. */
  lemma CloseAgreesWithPoll(s: JoyState, index: int, now: PadSample)
    requires s.Valid()
    ensures CloseJoystick(s, index).Some? <==> Polled(s, index)
    ensures CloseJoystick(s, index).None? ==> Update(s, index, now).events == []
  {
  }

  /** Rumble and light bar check only the index, not the handle: on a port
      that was never opened they address handle 0. */
  lemma OutputsIgnoreHandle(s: JoyState, index: int, low: U16, high: U16)
    requires s.Valid() && ValidIndex(index) && s.handles[index] == 0
    ensures !Polled(s, index)
    ensures Rumble(s, index, low, high).Some? && Rumble(s, index, low, high).value.handle == 0
    ensures SetLED(s, index, 0, 0, 0).Some? && SetLED(s, index, 0, 0, 0).value.handle == 0
  {
  }
}

=== FILE: joystick_poll.dfy ===
/** One poll of a joystick port: compare the pad's new raw values with the
    port's last-seen values and emit toolkit events for what changed.
    Axes report through the analog table; buttons are found by XOR-ing the
    old and new button words; a hat value is built from the d-pad entries
    whose bits changed. */
module JoystickPoll {
  import opened Common
  import opened PadLayout
  import opened JoystickState

  datatype Event =
    | AxisMotion(axis: nat, value: int)
    | ButtonChange(button: nat, pressed: bool)
    | HatChange(hat: nat, direction: bv8)

  /** Button number i's map entry meets the changed bits. */
  predicate Fires(changed: bv32, i: nat)
    requires i < |ButtonMap|
  {
    changed & ButtonMap[i] != 0
  }

  /** Button number i's map entry is held down in `buttons`. */
  predicate Held(buttons: bv32, i: nat)
    requires i < |ButtonMap|
  {
    buttons & ButtonMap[i] != 0
  }

  /** The order in which a poll examines the axes. */
  const AxisOrder: seq<nat> := [AxisLX, AxisLY, AxisRX, AxisRY, AxisL2, AxisR2]

  /** Where axis a stands in the poll order. */
  function AxisSlot(a: nat): (k: nat)
    requires IsAxis(a)
    ensures k < |AxisOrder| && AxisOrder[k] == a
    ensures forall j :: 0 <= j < |AxisOrder| && AxisOrder[j] == a ==> j == k
  {
    if a == AxisLX then 0
    else if a == AxisLY then 1
    else if a == AxisRX then 2
    else if a == AxisRY then 3
    else if a == AxisL2 then 4
    else 5
  }

  /** Both events are axis events, and the first one's axis comes earlier
      in the poll order. */
  predicate AxisBefore(e: Event, f: Event) {
    && e.AxisMotion? && f.AxisMotion? && IsAxis(e.axis) && IsAxis(f.axis)
    && AxisSlot(e.axis) < AxisSlot(f.axis)
  }

  /** The axis part of a poll from position k of the poll order on: an
      event for each axis whose raw value moved, carrying the table value of
      the new raw byte. */
  function AxisEvents(was: PadSample, now: PadSample, analog: seq<int>, k: nat): (r: seq<Event>)
    requires |analog| == 256 && k <= |AxisOrder|
    ensures forall e :: e in r ==>
              && e.AxisMotion?
              && IsAxis(e.axis)
              && k <= AxisSlot(e.axis)
              && e.value == analog[Raw(now, e.axis)]
    ensures forall j :: k <= j < |AxisOrder| ==>
              (AxisMotion(AxisOrder[j], analog[Raw(now, AxisOrder[j])]) in r <==>
               Raw(was, AxisOrder[j]) != Raw(now, AxisOrder[j]))
    // at most one event per axis, in the poll order
    ensures forall i, j :: 0 <= i < j < |r| ==> AxisBefore(r[i], r[j])
    ensures was == now ==> r == []
    decreases |AxisOrder| - k
  {
    if k == |AxisOrder| then []
    else
      var a := AxisOrder[k];
      var here := if Raw(was, a) != Raw(now, a) then [AxisMotion(a, analog[Raw(now, a)])] else [];
      here + AxisEvents(was, now, analog, k + 1)
  }

  /** The button loop from map index i on: one event per entry meeting the
      changed bits, reporting whether that entry is now held. */
  function ButtonEvents(changed: bv32, buttons: bv32, i: nat): (r: seq<Event>)
    requires i <= |ButtonMap|
    ensures forall e :: e in r ==>
              && e.ButtonChange?
              && i <= e.button < |ButtonMap|
              && Fires(changed, e.button)
              && e.pressed == Held(buttons, e.button)
    ensures forall j :: i <= j < |ButtonMap| && Fires(changed, j) ==>
              ButtonChange(j, Held(buttons, j)) in r
    ensures forall k, l :: 0 <= k < l < |r| ==> r[k].button < r[l].button
    decreases |ButtonMap| - i
  {
    if i == |ButtonMap| then []
    else
      var here := if Fires(changed, i) then [ButtonChange(i, Held(buttons, i))] else [];
      here + ButtonEvents(changed, buttons, i + 1)
  }

  /** The hat bit button number i contributes, if any. */
  function HatBit(i: nat): bv8 {
    if i == DpadDownButton then HatDown
    else if i == DpadLeftButton then HatLeft
    else if i == DpadUpButton then HatUp
    else if i == DpadRightButton then HatRight
    else 0
  }

  /** The hat value the button loop accumulates from map index i on: the
      direction of each d-pad entry at or after i whose bit changed. */
  function HatFrom(changed: bv32, i: nat): (hat: bv8)
    requires i <= |ButtonMap|
    ensures hat & 0xF0 == 0
    ensures hat & HatDown != 0 <==> i <= DpadDownButton && Fires(changed, DpadDownButton)
    ensures hat & HatLeft != 0 <==> i <= DpadLeftButton && Fires(changed, DpadLeftButton)
    ensures hat & HatUp != 0 <==> i <= DpadUpButton && Fires(changed, DpadUpButton)
    ensures hat & HatRight != 0 <==> i <= DpadRightButton && Fires(changed, DpadRightButton)
    decreases |ButtonMap| - i
  {
    if i == |ButtonMap| then 0
    else (if Fires(changed, i) then HatBit(i) else 0) | HatFrom(changed, i + 1)
  }

  /** The button part of a poll: nothing when no bit changed, otherwise the
      button events followed by one hat event. */
  function ButtonPhase(changed: bv32, buttons: bv32): (r: seq<Event>)
    ensures changed == 0 ==> r == []
    ensures changed != 0 ==> |r| >= 1 && r[|r| - 1] == HatChange(0, HatFrom(changed, 0))
    ensures forall e :: e in r ==> !e.AxisMotion?
  {
    if changed != 0 then ButtonEvents(changed, buttons, 0) + [HatChange(0, HatFrom(changed, 0))]
    else []
  }

  /** The port is polled: its index is in range and its handle is valid. */
  predicate Polled(s: JoyState, index: int)
    requires s.Valid()
  {
    ValidIndex(index) && s.handles[index] >= 1
  }

  datatype Poll = Poll(state: JoyState, events: seq<Event>)

  /** One poll of port `index`; `now` is what the pad service read. */
  function Update(s: JoyState, index: int, now: PadSample): (r: Poll)
    requires s.Valid()
    ensures r.state.Valid()
    // a refused port emits nothing and changes nothing
    ensures !Polled(s, index) ==> r == Poll(s, [])
    // otherwise only that port's last-seen values change, to the new reading
    ensures Polled(s, index) ==>
              && r.state.last[index] == now
              && r.state.handles == s.handles
              && r.state.count == s.count
              && r.state.analog == s.analog
              && (forall j :: 0 <= j < MaxLoginUsers && j != index ==> r.state.last[j] == s.last[j])
  {
    if !ValidIndex(index) || s.handles[index] < 1 then
      Poll(s, [])
    else
      var was := s.last[index];
      var changed := was.buttons ^ now.buttons;
      Poll(s.(last := s.last[index := now]), AxisEvents(was, now, s.analog, 0) + ButtonPhase(changed, now.buttons))
  }

  /** A polled port's events: its axis part, then its button part. */
  lemma PollEvents(s: JoyState, index: int, now: PadSample)
    requires s.Valid() && Polled(s, index)
    ensures Update(s, index, now).events ==
            AxisEvents(s.last[index], now, s.analog, 0)
            + ButtonPhase(s.last[index].buttons ^ now.buttons, now.buttons)
  {
  }

  /** The order of a poll's events: the axis events come first, one per
      moved axis in the poll order. */
  lemma PollOrder(s: JoyState, index: int, now: PadSample)
    requires s.Valid() && Polled(s, index)
    ensures var events := Update(s, index, now).events;
            forall i, j :: 0 <= i < j < |events| && events[j].AxisMotion? ==> AxisBefore(events[i], events[j])
  {
    PollEvents(s, index, now);
    var changed := s.last[index].buttons ^ now.buttons;
    PartsOrder(Update(s, index, now).events, AxisEvents(s.last[index], now, s.analog, 0),
               ButtonPhase(changed, now.buttons));
  }

  /** When some bit changed, the hat event closes the poll. */
  lemma PollEndsWithHat(s: JoyState, index: int, now: PadSample)
    requires s.Valid() && Polled(s, index)
    requires s.last[index].buttons ^ now.buttons != 0
    ensures |Update(s, index, now).events| >= 1
    ensures Update(s, index, now).events[|Update(s, index, now).events| - 1] ==
            HatChange(0, HatFrom(s.last[index].buttons ^ now.buttons, 0))
  {
    PollEvents(s, index, now);
    var changed := s.last[index].buttons ^ now.buttons;
    PartsOrder(Update(s, index, now).events, AxisEvents(s.last[index], now, s.analog, 0),
               ButtonPhase(changed, now.buttons));
  }

  /** An ordered axis part followed by axis-free events: an axis event is
      preceded only by axis events earlier in the poll order, and the last
      event is the last of the rest. */
  lemma PartsOrder(events: seq<Event>, axisPart: seq<Event>, rest: seq<Event>)
    requires events == axisPart + rest
    requires forall i, j :: 0 <= i < j < |axisPart| ==> AxisBefore(axisPart[i], axisPart[j])
    requires forall e :: e in rest ==> !e.AxisMotion?
    ensures forall i, j :: 0 <= i < j < |events| && events[j].AxisMotion? ==> AxisBefore(events[i], events[j])
    ensures |rest| >= 1 ==> |events| >= 1 && events[|events| - 1] == rest[|rest| - 1]
  {
  }

  /** Axis events are found in the axis part alone. */
  lemma AxisPartIff(was: PadSample, now: PadSample, analog: seq<int>, rest: seq<Event>, a: nat)
    requires |analog| == 256 && IsAxis(a)
    requires forall e :: e in rest ==> !e.AxisMotion?
    ensures (exists v :: AxisMotion(a, v) in AxisEvents(was, now, analog, 0) + rest) <==>
            Raw(was, a) != Raw(now, a)
    ensures forall v :: AxisMotion(a, v) in AxisEvents(was, now, analog, 0) + rest ==>
              v == analog[Raw(now, a)]
  {
    var axisPart := AxisEvents(was, now, analog, 0);
    var j := AxisSlot(a);
    assert AxisMotion(a, analog[Raw(now, a)]) in axisPart <==> Raw(was, a) != Raw(now, a);
  }

  /** Axis a gets an event exactly when its raw value moved, and the event
      carries the analog-table value of the new raw byte. */
  lemma AxisEventIff(s: JoyState, index: int, now: PadSample, a: nat)
    requires s.Valid() && Polled(s, index) && IsAxis(a)
    ensures (exists v :: AxisMotion(a, v) in Update(s, index, now).events) <==>
            Raw(s.last[index], a) != Raw(now, a)
    ensures forall v :: AxisMotion(a, v) in Update(s, index, now).events ==>
              v == s.analog[Raw(now, a)]
  {
    PollEvents(s, index, now);
    AxisPartIff(s.last[index], now, s.analog, ButtonPhase(s.last[index].buttons ^ now.buttons, now.buttons), a);
  }

  /** Button events are found in the button part alone. */
  lemma ButtonPartIff(axisPart: seq<Event>, changed: bv32, buttons: bv32, i: nat, pressed: bool)
    requires forall e :: e in axisPart ==> e.AxisMotion?
    ensures ButtonChange(i, pressed) in axisPart + ButtonPhase(changed, buttons) <==>
              i < |ButtonMap| && Fires(changed, i) && pressed == Held(buttons, i)
  {
    if changed == 0 {
      if i < |ButtonMap| {
        assert !Fires(changed, i);
      }
    } else {
      assert ButtonPhase(changed, buttons) == ButtonEvents(changed, buttons, 0) + [HatChange(0, HatFrom(changed, 0))];
    }
  }

  /** Button i gets an event exactly when its map entry meets old XOR new,
      and the event says pressed exactly when the entry is held now. */
  lemma ButtonEventIff(s: JoyState, index: int, now: PadSample, i: nat, pressed: bool)
    requires s.Valid() && Polled(s, index)
    ensures ButtonChange(i, pressed) in Update(s, index, now).events <==>
              && i < |ButtonMap|
              && Fires(s.last[index].buttons ^ now.buttons, i)
              && pressed == Held(now.buttons, i)
  {
    PollEvents(s, index, now);
    ButtonPartIff(AxisEvents(s.last[index], now, s.analog, 0), s.last[index].buttons ^ now.buttons, now.buttons, i, pressed);
  }

  /** Placeholder entries of the button map never produce an event. */
  lemma PlaceholderNeverFires(s: JoyState, index: int, now: PadSample, i: nat, pressed: bool)
    requires s.Valid()
    requires i < |ButtonMap| && ButtonMap[i] == 0
    ensures ButtonChange(i, pressed) !in Update(s, index, now).events
  {
    if Polled(s, index) {
      ButtonEventIff(s, index, now, i, pressed);
    }
  }

  /** The hat value reports, for each d-pad direction, whether that
      direction's pad bit is among the changed bits. */
  predicate HatReportsChanges(hat: bv8, changed: bv32) {
    && (hat & HatDown != 0 <==> changed & PadDown != 0)
    && (hat & HatLeft != 0 <==> changed & PadLeft != 0)
    && (hat & HatUp != 0 <==> changed & PadUp != 0)
    && (hat & HatRight != 0 <==> changed & PadRight != 0)
  }

  /** The hat the whole button loop builds reports the changed d-pad bits. */
  lemma HatDirections(changed: bv32)
    ensures HatReportsChanges(HatFrom(changed, 0), changed)
  {
    assert ButtonMap[DpadDownButton] == PadDown && ButtonMap[DpadLeftButton] == PadLeft;
    assert ButtonMap[DpadUpButton] == PadUp && ButtonMap[DpadRightButton] == PadRight;
  }

  /** The hat event of a button part: present exactly when some bit
      changed, and then carrying the accumulated hat value. */
  lemma HatPartIff(axisPart: seq<Event>, changed: bv32, buttons: bv32, v: bv8)
    requires forall e :: e in axisPart ==> e.AxisMotion?
    ensures HatChange(0, v) in axisPart + ButtonPhase(changed, buttons) <==>
            changed != 0 && v == HatFrom(changed, 0)
  {
    var phase := ButtonPhase(changed, buttons);
    assert HatChange(0, v) !in axisPart;
    if changed != 0 {
      var buttonEvents := ButtonEvents(changed, buttons, 0);
      assert phase == buttonEvents + [HatChange(0, HatFrom(changed, 0))];
      assert HatChange(0, v) !in buttonEvents;
    }
  }

  /** Some hat event is among the events. */
  ghost predicate HasHat(events: seq<Event>) {
    exists w :: HatChange(0, w) in events
  }

  /** A hat event is emitted exactly when some button bit changed. */
  lemma HatEventExists(s: JoyState, index: int, now: PadSample)
    requires s.Valid() && Polled(s, index)
    ensures HasHat(Update(s, index, now).events) <==> s.last[index].buttons ^ now.buttons != 0
  {
    PollEvents(s, index, now);
    var changed := s.last[index].buttons ^ now.buttons;
    HatPartExists(AxisEvents(s.last[index], now, s.analog, 0), changed, now.buttons);
  }

  /** Some hat event is in a poll exactly when some bit changed. */
  lemma HatPartExists(axisPart: seq<Event>, changed: bv32, buttons: bv32)
    requires forall e :: e in axisPart ==> e.AxisMotion?
    ensures HasHat(axisPart + ButtonPhase(changed, buttons)) <==> changed != 0
  {
    HatPartIff(axisPart, changed, buttons, HatFrom(changed, 0));
    if w :| HatChange(0, w) in axisPart + ButtonPhase(changed, buttons) {
      HatPartIff(axisPart, changed, buttons, w);
    }
  }

  /** Each direction of the hat value is set when that d-pad bit changed,
      whether it was pressed or released. */
  lemma HatEventReports(s: JoyState, index: int, now: PadSample, v: bv8)
    requires s.Valid() && Polled(s, index)
    ensures HatChange(0, v) in Update(s, index, now).events ==>
              HatReportsChanges(v, s.last[index].buttons ^ now.buttons)
  {
    PollEvents(s, index, now);
    var changed := s.last[index].buttons ^ now.buttons;
    HatPartIff(AxisEvents(s.last[index], now, s.analog, 0), changed, now.buttons, v);
    HatDirections(changed);
  }

  /** Polling twice with the same reading: the second poll is silent and
      changes nothing. */
  lemma RepollIsQuiet(s: JoyState, index: int, now: PadSample)
    requires s.Valid()
    ensures Update(Update(s, index, now).state, index, now) == Poll(Update(s, index, now).state, [])
  {
    var s1 := Update(s, index, now).state;
    if Polled(s1, index) {
      PollEvents(s1, index, now);
      assert s1.last[index] == now;
      assert s1.last[index := now] == s1.last;
      assert now.buttons ^ now.buttons == 0;
      assert AxisEvents(now, now, s1.analog, 0) == [];
      assert ButtonPhase(0, now.buttons) == [];
    }
  }
}

=== FILE: joystick_state.dfy ===
/** The driver's per-port tables: the pad handle opened for each user slot,
    the joystick count, the analog lookup table, and the last raw values
    seen on each port (used only to detect changes between polls). */
module JoystickState {
  import opened Common
  import opened PadLayout

  /** One reading of a pad: the button word and the six 8-bit analog
      values (sticks and triggers). */
  datatype PadSample = PadSample(
    buttons: bv32,
    lx: Byte, ly: Byte, rx: Byte, ry: Byte,
    l2: Byte, r2: Byte)

  const ZeroSample: PadSample := PadSample(0, 0, 0, 0, 0, 0, 0)

  /** The raw value a sample holds for an axis number. */
  function Raw(s: PadSample, axis: nat): Byte
    requires IsAxis(axis)
  {
    if axis == AxisLX then s.lx
    else if axis == AxisLY then s.ly
    else if axis == AxisRX then s.rx
    else if axis == AxisRY then s.ry
    else if axis == AxisL2 then s.l2
    else s.r2
  }

  datatype JoyState = JoyState(
    handles: seq<int>,       // pad handle per user slot
    count: nat,              // joysticks found by the last detection
    analog: seq<int>,        // raw 0..255 to toolkit axis value
    last: seq<PadSample>)    // last values seen per port
  {
    predicate Valid() {
      && |handles| == MaxLoginUsers
      && |last| == MaxLoginUsers
      && |analog| == 256
    }
  }

  /** Every table zero, as the driver's static storage starts. */
  const Boot: JoyState := JoyState(
    seq(MaxLoginUsers, _ => 0), 0, seq(256, _ => 0), seq(MaxLoginUsers, _ => ZeroSample))

  /** The port-index check as the driver writes it: only indices above the
      table size are refused. */
  predicate RejectsAsWritten(index: int) {
    index > MaxLoginUsers
  }

  /** The port-index check the tables need. */
  predicate ValidIndex(index: int) {
    0 <= index < MaxLoginUsers
  }

  /** The check as written lets index MaxLoginUsers through, one past the
      end of every per-port table. */
  lemma AsWrittenGuardAdmitsOutOfRange(s: JoyState)
    requires s.Valid()
    ensures !RejectsAsWritten(MaxLoginUsers)
    ensures MaxLoginUsers >= |s.handles| && MaxLoginUsers >= |s.last|
  {
  }

  /** On non-negative indices the corrected check refuses exactly what the
      written one refuses, plus the index MaxLoginUsers. */
  lemma CorrectedGuardAddsOnlyMax(index: int)
    requires index >= 0
    ensures !ValidIndex(index) <==> RejectsAsWritten(index) || index == MaxLoginUsers
  {
  }
}

=== FILE: pad_layout.dfy ===
/** The fixed tables of the console joystick driver: the vendor's error
    codes and button bits, the 20-entry button map that numbers the
    toolkit's joystick buttons, the six axis numbers, the hat bits, and the
    gamepad mapping the driver hands to the toolkit's controller layer. */
module PadLayout {
  import opened Common

  /** Logged-in user slots, and so joystick ports (the size of every
      per-port table of the driver). */
  const MaxLoginUsers: nat := 4

  /** Vendor sentinels, as the signed values a comparison with the hex
      literal matches. */
  const UserIdInvalid: int := Signed32(0xFFFF_FFFF)
  const PadErrorAlreadyOpened: int := Signed32(0x8092_0004)
  const PadErrorNotConnected: int := Signed32(0x8092_0007)

  /* Pad button bits of the vendor pad-data word. */
  const PadL3: bv32 := 0x0002
  const PadR3: bv32 := 0x0004
  const PadOptions: bv32 := 0x0008
  const PadUp: bv32 := 0x0010
  const PadRight: bv32 := 0x0020
  const PadDown: bv32 := 0x0040
  const PadLeft: bv32 := 0x0080
  const PadL2: bv32 := 0x0100
  const PadR2: bv32 := 0x0200
  const PadL1: bv32 := 0x0400
  const PadR1: bv32 := 0x0800
  const PadTriangle: bv32 := 0x1000
  const PadCircle: bv32 := 0x2000
  const PadCross: bv32 := 0x4000
  const PadSquare: bv32 := 0x8000
  /** Placeholders for buttons the driver cannot read yet. */
  const PadShare: bv32 := 0
  const PadDummy: bv32 := 0

  /** Toolkit button number i reports pad bit ButtonMap[i]. */
  const ButtonMap: seq<bv32> := [
    PadSquare, PadCross, PadCircle, PadTriangle, PadL1, PadR1,
    PadDummy, PadDummy, PadDummy, PadShare, PadL3, PadR3, PadDummy,
    PadOptions, PadDown, PadLeft, PadUp, PadRight, PadL2, PadR2
  ]
  const ButtonCount: nat := |ButtonMap|

  /** Button numbers whose entries feed the hat. */
  const DpadDownButton: nat := 14
  const DpadLeftButton: nat := 15
  const DpadUpButton: nat := 16
  const DpadRightButton: nat := 17

  /* Axis numbers, ordered to match a "Sony DualShock 4 V2" layout. */
  const AxisLX: nat := 0
  const AxisLY: nat := 1
  const AxisRX: nat := 2
  const AxisRY: nat := 5
  const AxisL2: nat := 3
  const AxisR2: nat := 4
  const AxisCount: nat := 6

  predicate IsAxis(axis: nat) {
    axis < AxisCount
  }

  /* Toolkit hat bits. */
  const HatUp: bv8 := 0x01
  const HatRight: bv8 := 0x02
  const HatDown: bv8 := 0x04
  const HatLeft: bv8 := 0x08

  /** Exactly one bit of the word is set. */
  predicate SingleBit(b: bv32) {
    b != 0 && b & (b - 1) == 0
  }

  /** Every entry of the button map is either a placeholder or one pad bit. */
  lemma ButtonMapSingleBits()
    ensures |ButtonMap| == ButtonCount
    ensures forall i :: 0 <= i < |ButtonMap| && ButtonMap[i] != 0 ==> SingleBit(ButtonMap[i])
  {
    assert SingleBit(PadL3) && SingleBit(PadR3) && SingleBit(PadOptions);
    assert SingleBit(PadUp) && SingleBit(PadRight) && SingleBit(PadDown) && SingleBit(PadLeft);
    assert SingleBit(PadL2) && SingleBit(PadR2) && SingleBit(PadL1) && SingleBit(PadR1);
    assert SingleBit(PadTriangle) && SingleBit(PadCircle) && SingleBit(PadCross) && SingleBit(PadSquare);
  }

  /** No pad bit is reported under two button numbers. */
  lemma ButtonMapDistinct()
    ensures forall i, j :: 0 <= i < j < |ButtonMap| && ButtonMap[i] != 0 ==>
              ButtonMap[i] != ButtonMap[j]
  {
  }

  /** What a named control of the controller layer is bound to. */
  datatype Binding = Unbound | Button(index: nat) | Axis(index: nat)

  datatype GamepadMapping = GamepadMapping(
    a: Binding, b: Binding, x: Binding, y: Binding,
    back: Binding, guide: Binding, start: Binding,
    leftstick: Binding, rightstick: Binding,
    leftshoulder: Binding, rightshoulder: Binding,
    dpup: Binding, dpdown: Binding, dpleft: Binding, dpright: Binding,
    leftx: Binding, lefty: Binding, rightx: Binding, righty: Binding,
    lefttrigger: Binding, righttrigger: Binding)
  {
    /** The button-bound controls, in declaration order. */
    function ButtonTargets(): seq<Binding> {
      [a, b, x, y, back, guide, start, leftstick, rightstick,
       leftshoulder, rightshoulder, dpup, dpdown, dpleft, dpright]
    }
  }

  /** The mapping with the right stick bound to button 10, the left stick's
      button. */
  function GamepadMappingAsWritten(): (m: GamepadMapping)
    // every physically named control but the right stick indexes its own pad bit
    ensures BindsPadBit(m.a, PadCross) && BindsPadBit(m.b, PadCircle)
    ensures BindsPadBit(m.x, PadSquare) && BindsPadBit(m.y, PadTriangle)
    ensures BindsPadBit(m.back, PadOptions) && BindsPadBit(m.leftstick, PadL3)
    ensures BindsPadBit(m.leftshoulder, PadL1) && BindsPadBit(m.rightshoulder, PadR1)
    ensures BindsPadBit(m.dpup, PadUp) && BindsPadBit(m.dpdown, PadDown)
    ensures BindsPadBit(m.dpleft, PadLeft) && BindsPadBit(m.dpright, PadRight)
    // the right stick reads the left stick's bit instead
    ensures BindsPadBit(m.rightstick, PadL3) && !BindsPadBit(m.rightstick, PadR3)
    // start reads button 9, a placeholder entry, and guide is not bound
    ensures m.start == Button(9) && ButtonMap[9] == 0 && m.guide == Unbound
    // the sticks and triggers are the six distinct axes
    ensures [m.leftx, m.lefty, m.rightx, m.righty, m.lefttrigger, m.righttrigger]
            == [Axis(AxisLX), Axis(AxisLY), Axis(AxisRX), Axis(AxisRY), Axis(AxisL2), Axis(AxisR2)]
  {
    GamepadMapping(
      Button(1), Button(2), Button(0), Button(3),
      Button(13), Unbound, Button(9),
      Button(10), Button(10),
      Button(4), Button(5),
      Button(16), Button(14), Button(15), Button(17),
      Axis(AxisLX), Axis(AxisLY), Axis(AxisRX), Axis(AxisRY),
      Axis(AxisL2), Axis(AxisR2))
  }

  /** As written, both stick clicks report button 10 and no control is
      bound to button 11, the only entry carrying the right-stick bit. */
  lemma AsWrittenSticksCollide()
    ensures GamepadMappingAsWritten().leftstick == GamepadMappingAsWritten().rightstick
    ensures Button(11) !in GamepadMappingAsWritten().ButtonTargets()
    ensures forall i :: 0 <= i < |ButtonMap| && ButtonMap[i] == PadR3 ==> i == 11
  {
  }

  /** The binding is a button whose map entry is the pad bit `bit`. */
  predicate BindsPadBit(binding: Binding, bit: bv32) {
    binding.Button? && binding.index < |ButtonMap| && ButtonMap[binding.index] == bit
  }

  /** The mapping with the right stick bound to button 11. */
  function Mapping(): (m: GamepadMapping)
    // every physically named control indexes the pad bit of that name
    ensures BindsPadBit(m.a, PadCross)
    ensures BindsPadBit(m.b, PadCircle)
    ensures BindsPadBit(m.x, PadSquare)
    ensures BindsPadBit(m.y, PadTriangle)
    ensures BindsPadBit(m.back, PadOptions)
    ensures BindsPadBit(m.leftstick, PadL3)
    ensures BindsPadBit(m.rightstick, PadR3)
    ensures BindsPadBit(m.leftshoulder, PadL1)
    ensures BindsPadBit(m.rightshoulder, PadR1)
    ensures BindsPadBit(m.dpup, PadUp)
    ensures BindsPadBit(m.dpdown, PadDown)
    ensures BindsPadBit(m.dpleft, PadLeft)
    ensures BindsPadBit(m.dpright, PadRight)
    // no two controls share a button
    ensures forall i, j :: 0 <= i < j < |m.ButtonTargets()| && m.ButtonTargets()[i].Button? ==>
              m.ButtonTargets()[i] != m.ButtonTargets()[j]
    // the sticks and triggers are the six distinct axes
    ensures [m.leftx, m.lefty, m.rightx, m.righty, m.lefttrigger, m.righttrigger]
            == [Axis(AxisLX), Axis(AxisLY), Axis(AxisRX), Axis(AxisRY), Axis(AxisL2), Axis(AxisR2)]
  {
    GamepadMappingAsWritten().(rightstick := Button(11))
  }
}

=== FILE: video_display.dfy ===
/** The video driver's single display: initialisation registers one
    display running 1920x1080 at 60 Hz, and the mode query offers that
    mode and 1280x720 at 60 Hz. */
module VideoDisplay {
  import opened Common

  /** The toolkit's packed code for 32-bit RGBA pixels. */
  const PixelFormatRGBA8888: U32 := 0x1646_2004

  datatype DisplayMode = DisplayMode(w: int, h: int, refreshRate: int, format: U32)

  const FullHD: DisplayMode := DisplayMode(1920, 1080, 60, PixelFormatRGBA8888)
  const HD: DisplayMode := DisplayMode(1280, 720, 60, PixelFormatRGBA8888)

  datatype Display = Display(desktopMode: DisplayMode, currentMode: DisplayMode, modes: seq<DisplayMode>)

  /** Video initialisation: one display is appended to the toolkit's list,
      with desktop and current mode both FullHD and no modes listed yet. */
  function VideoInit(displays: seq<Display>): (r: seq<Display>)
    ensures |r| == |displays| + 1 && r[..|displays|] == displays
    ensures r[|displays|].desktopMode == FullHD && r[|displays|].currentMode == FullHD
    ensures r[|displays|].modes == []
  {
    displays + [Display(FullHD, FullHD, [])]
  }

  /** The toolkit's mode registration: a mode already listed is refused,
      any other is appended. */
  function AddMode(d: Display, mode: DisplayMode): (r: Display)
    ensures mode in d.modes ==> r == d
    ensures |r.modes| == |d.modes| + (if mode in d.modes then 0 else 1)
    ensures mode in r.modes && r.modes[..|d.modes|] == d.modes
    ensures r.desktopMode == d.desktopMode && r.currentMode == d.currentMode
  {
    if mode in d.modes then d else d.(modes := d.modes + [mode])
  }

  /** The mode query: the current mode, then HD. */
  function GetDisplayModes(d: Display): (r: Display)
    ensures d.currentMode in r.modes && HD in r.modes
    // the modes already listed stay, in front
    ensures |d.modes| <= |r.modes| <= |d.modes| + 2 && r.modes[..|d.modes|] == d.modes
    // a mode already listed is not added again
    ensures |r.modes| == |d.modes| + (if d.currentMode in d.modes then 0 else 1)
                        + (if HD in d.modes || HD == d.currentMode then 0 else 1)
    // a new current mode is added first, and a new HD after it
    ensures d.currentMode !in d.modes ==> r.modes[|d.modes|] == d.currentMode
    ensures HD !in d.modes && HD != d.currentMode ==> r.modes[|r.modes| - 1] == HD
    ensures forall m :: m in r.modes ==> m in d.modes || m == d.currentMode || m == HD
    ensures r.desktopMode == d.desktopMode && r.currentMode == d.currentMode
  {
    AddMode(AddMode(d, d.currentMode), HD)
  }

  /** Registering a mode twice lists it once. */
  lemma AddModeIdempotent(d: Display, mode: DisplayMode)
    ensures AddMode(AddMode(d, mode), mode) == AddMode(d, mode)
    ensures mode in AddMode(d, mode).modes
  {
  }

  /** A freshly initialised display offers exactly FullHD then HD, and
      asking again changes nothing. */
  lemma InitThenModes(displays: seq<Display>)
    ensures var d := VideoInit(displays)[|displays|];
            && GetDisplayModes(d).modes == [FullHD, HD]
            && GetDisplayModes(GetDisplayModes(d)) == GetDisplayModes(d)
  {
    var d := VideoInit(displays)[|displays|];
    assert AddMode(d, FullHD).modes == [FullHD];
    assert HD !in [FullHD];
  }
}

=== FILE: video_modules.dfy ===
/** The shared start-up of the console's system modules: the system and
    user services, the pad module, the audio-out module, then the user
    service itself.  Each step's status is an input; the first failure
    aborts the rest, and a full success latches so later calls do
    nothing. */
module VideoModules {
  import opened Common

  datatype LoadStep =
    | SystemService
    | UserService
    | PadModule         // internal module id 0x80000024
    | AudioOutModule
    | UserServiceInit

  /** The order the steps run in. */
  const LoadOrder: seq<LoadStep> := [SystemService, UserService, PadModule, AudioOutModule, UserServiceInit]

  /** The first failing step at or after k, or |status| if none fails. */
  function FirstFailure(status: seq<U32>, k: nat): (f: nat)
    requires k <= |status|
    ensures k <= f <= |status|
    ensures forall j :: k <= j < f ==> status[j] == 0
    ensures f < |status| ==> status[f] != 0
    decreases |status| - k
  {
    if k == |status| then k
    else if status[k] != 0 then k
    else FirstFailure(status, k + 1)
  }

  /** The outcome of one call: the latch afterwards, the return code, the
      steps attempted in order, and whether the splash screen was hidden
      (done only once every step succeeded). */
  datatype Loaded = Loaded(done: bool, result: int, attempted: seq<LoadStep>, splashHidden: bool)

  /** One call; `status[k]` is what step k returns if it runs. */
  function LoadModules(done: bool, status: seq<U32>): (r: Loaded)
    requires |status| == |LoadOrder|
    // the attempted steps are a prefix of the fixed order
    ensures |r.attempted| <= |LoadOrder| && r.attempted == LoadOrder[..|r.attempted|]
    // after success nothing runs and the call succeeds
    ensures done ==> r == Loaded(true, 0, [], false)
    // the latch is set exactly when every step succeeded
    ensures !done ==> (r.done <==> forall k :: 0 <= k < |status| ==> status[k] == 0)
    ensures r.result == 0 <==> r.done
    ensures r.result != 0 ==> r.result == ErrorResult
    ensures r.splashHidden <==> !done && r.done
    // a failed call stops at its first failing step: every earlier step
    // succeeded and nothing after it ran
    ensures !r.done ==>
              && |r.attempted| >= 1
              && status[|r.attempted| - 1] != 0
              && (forall k :: 0 <= k < |r.attempted| - 1 ==> status[k] == 0)
    ensures !done && r.done ==> r.attempted == LoadOrder
  {
    if done then Loaded(true, 0, [], false)
    else
      var f := FirstFailure(status, 0);
      if f < |status| then Loaded(false, ErrorResult, LoadOrder[..f + 1], false)
      else Loaded(true, 0, LoadOrder, true)
  }

  /** Once a call has succeeded, every later call returns 0 and runs no
      step, whatever the steps would return. */
  lemma LoadModulesLatches(done: bool, status: seq<U32>, later: seq<U32>)
    requires |status| == |LoadOrder| && |later| == |LoadOrder|
    requires LoadModules(done, status).result == 0
    ensures LoadModules(LoadModules(done, status).done, later) == Loaded(true, 0, [], false)
  {
  }

  /** Statuses of steps after the first failure are never looked at. */
  lemma StepsAfterFailureIgnored(status: seq<U32>, other: seq<U32>, f: nat)
    requires |status| == |LoadOrder| && |other| == |LoadOrder|
    requires f < |status| && status[f] != 0 && other[f] == status[f]
    requires forall k :: 0 <= k < f ==> status[k] == 0 && other[k] == 0
    ensures LoadModules(false, status) == LoadModules(false, other)
    ensures LoadModules(false, status).attempted == LoadOrder[..f + 1]
  {
    assert FirstFailure(status, 0) == f;
    assert FirstFailure(other, 0) == f;
  }
}

=== FILE: video_window.dfy ===
/** The video driver's windows.  The driver supports one window: it keeps
    a pointer to the registered window and one native window whose
    dimensions the EGL surface is created at.  Windows are named by
    identifiers; each carries its size and its driver data (an EGL surface
    handle, or none).  EGL availability, allocation and surface creation
    are results passed in. */
module VideoWindow {
  import opened Common
  import opened VideoDisplay

  type WindowId = nat

  /** An EGL surface handle; NoSurface is the null surface. */
  datatype Surface = NoSurface | Live(handle: nat)

  datatype WindowData = WindowData(surface: Surface)

  datatype Window = Window(w: int, h: int, driverdata: Option<WindowData>)

  /** The native window's dimensions. */
  datatype NativeWindow = NativeWindow(width: int, height: int)

  datatype Video = Video(registered: Option<WindowId>, windows: map<WindowId, Window>, native: NativeWindow)

  /** Only the registered window carries driver data. */
  predicate Consistent(v: Video) {
    && (v.registered.Some? ==> v.registered.value in v.windows)
    && forall id :: id in v.windows && v.windows[id].driverdata.Some? ==> v.registered == Some(id)
  }

  datatype Step = Step(video: Video, result: int)

  /** Creating the window `id`.  Refused while a window is registered, when
      EGL is not loaded, or when the driver data cannot be allocated; the
      native window takes the window's size before the surface is made, so a
      failed surface leaves only that change behind. */
  function CreateWindow(v: Video, id: WindowId, eglLoaded: bool, allocOk: bool, made: Surface): (r: Step)
    requires id in v.windows
    ensures r.result == 0 <==> v.registered.None? && eglLoaded && allocOk && made.Live?
    ensures r.result != 0 ==> r.result == ErrorResult
    // a refusal leaves the registration and every window as they were
    ensures r.result != 0 ==> r.video.registered == v.registered && r.video.windows == v.windows
    ensures v.registered.Some? || !eglLoaded || !allocOk ==> r.video == v
    // past those checks the native window takes the window's size, whether
    // or not the surface is then made
    ensures v.registered.None? && eglLoaded && allocOk ==>
              r.video.native == NativeWindow(v.windows[id].w, v.windows[id].h)
    ensures r.result == 0 ==>
              && r.video.registered == Some(id)
              && r.video.windows == v.windows[id := v.windows[id].(driverdata := Some(WindowData(made)))]
  {
    if v.registered.Some? || !eglLoaded || !allocOk then Step(v, ErrorResult)
    else
      var win := v.windows[id];
      var v' := v.(native := NativeWindow(win.w, win.h));
      if made == NoSurface then Step(v', ErrorResult)
      else Step(v'.(windows := v.windows[id := win.(driverdata := Some(WindowData(made)))], registered := Some(id)), 0)
  }

  datatype Teardown = Teardown(video: Video, destroyed: Option<nat>)

  /** Destroying window `id`: only the registered window is acted on; its
      live surface is destroyed, its driver data released and the
      registration cleared.  Any other window is left alone. */
  function DestroyWindow(v: Video, id: WindowId): (r: Teardown)
    requires id in v.windows
    ensures v.registered != Some(id) ==> r == Teardown(v, None)
    ensures v.registered == Some(id) ==>
              && r.video.registered.None?
              && r.video.windows == v.windows[id := v.windows[id].(driverdata := None)]
              && r.video.native == v.native
    ensures r.destroyed.Some? <==>
              v.registered == Some(id) && v.windows[id].driverdata.Some? && v.windows[id].driverdata.value.surface.Live?
    // the surface destroyed is the window's own
    ensures r.destroyed.Some? ==> r.destroyed.value == v.windows[id].driverdata.value.surface.handle
  {
    if v.registered != Some(id) then Teardown(v, None)
    else
      var win := v.windows[id];
      var destroyed := if win.driverdata.Some? && win.driverdata.value.surface.Live?
                       then Some(win.driverdata.value.surface.handle) else None;
      Teardown(v.(registered := None, windows := v.windows[id := win.(driverdata := None)]), destroyed)
  }

  /** The window has driver data holding a live surface. */
  predicate HasLiveSurface(v: Video, id: WindowId)
    requires id in v.windows
  {
    v.windows[id].driverdata.Some? && v.windows[id].driverdata.value.surface.Live?
  }

  /** Replacing window `id`'s surface by one `made` at w x h, when it has a
      live one; otherwise nothing changes.  The new surface may be null. */
  function RecreateSurface(v: Video, id: WindowId, w: int, h: int, made: Surface): (r: Teardown)
    requires id in v.windows
    ensures !HasLiveSurface(v, id) ==> r == Teardown(v, None)
    ensures HasLiveSurface(v, id) ==>
              && r.destroyed == Some(v.windows[id].driverdata.value.surface.handle)
              && r.video.native == NativeWindow(w, h)
              && r.video.registered == v.registered
              && r.video.windows == v.windows[id := v.windows[id].(driverdata := Some(WindowData(made)))]
  {
    if !HasLiveSurface(v, id) then Teardown(v, None)
    else
      var gone := v.windows[id].driverdata.value.surface.handle;
      Teardown(v.(native := NativeWindow(w, h),
                  windows := v.windows[id := v.windows[id].(driverdata := Some(WindowData(made)))]),
               Some(gone))
  }

  /** Resizing: the surface follows the window's size. */
  function SetWindowSize(v: Video, id: WindowId, made: Surface): (r: Teardown)
    requires id in v.windows
    ensures !HasLiveSurface(v, id) ==> r == Teardown(v, None)
    ensures HasLiveSurface(v, id) ==>
              && r.destroyed == Some(v.windows[id].driverdata.value.surface.handle)
              && r.video.native == NativeWindow(v.windows[id].w, v.windows[id].h)
              && r.video.registered == v.registered
              && r.video.windows == v.windows[id := v.windows[id].(driverdata := Some(WindowData(made)))]
    // no other window is touched
    ensures forall j :: j in v.windows && j != id ==> j in r.video.windows && r.video.windows[j] == v.windows[j]
  {
    RecreateSurface(v, id, v.windows[id].w, v.windows[id].h, made)
  }

  /** The outcome of a mode change: the state, the surface handle
      destroyed if any, and the return code. */
  datatype ModeChange = ModeChange(video: Video, destroyed: Option<nat>, result: int)

  /** A mode change: the focused window's surface is recreated at the
      mode's size.  The call always reports success. */
  function SetDisplayMode(v: Video, focus: WindowId, mode: DisplayMode, made: Surface): (r: ModeChange)
    requires focus in v.windows
    ensures r.result == 0
    ensures !HasLiveSurface(v, focus) ==> r.video == v && r.destroyed.None?
    ensures HasLiveSurface(v, focus) ==>
              && r.destroyed == Some(v.windows[focus].driverdata.value.surface.handle)
              && r.video.native == NativeWindow(mode.w, mode.h)
              && r.video.registered == v.registered
              && r.video.windows == v.windows[focus := v.windows[focus].(driverdata := Some(WindowData(made)))]
    // no other window is touched
    ensures forall j :: j in v.windows && j != focus ==> j in r.video.windows && r.video.windows[j] == v.windows[j]
  {
    var t := RecreateSurface(v, focus, mode.w, mode.h, made);
    ModeChange(t.video, t.destroyed, 0)
  }

  /** Adopting a foreign window is not supported. */
  function CreateWindowFrom(v: Video, id: WindowId): (r: Step)
    ensures r.result == ErrorResult && r.video == v
  {
    Step(v, ErrorResult)
  }

  /** Every window operation keeps driver data on the registered window
      only. */
  lemma OperationsKeepConsistent(v: Video, id: WindowId, eglLoaded: bool, allocOk: bool,
                                 made: Surface, mode: DisplayMode)
    requires Consistent(v) && id in v.windows
    ensures Consistent(CreateWindow(v, id, eglLoaded, allocOk, made).video)
    ensures Consistent(DestroyWindow(v, id).video)
    ensures Consistent(SetWindowSize(v, id, made).video)
    ensures Consistent(SetDisplayMode(v, id, mode, made).video)
  {
  }

  /** Creating a window, then destroying it, frees the single slot: the
      registration is empty again and a later create with working EGL can
      succeed, for that window or another. */
  lemma CreateDestroyCreate(v: Video, a: WindowId, b: WindowId, made: Surface, made2: Surface)
    requires a in v.windows && b in v.windows
    requires CreateWindow(v, a, true, true, made).result == 0
    ensures var v1 := CreateWindow(v, a, true, true, made).video;
            var v2 := DestroyWindow(v1, a).video;
            && v2.registered.None?
            && (made2.Live? ==> CreateWindow(v2, b, true, true, made2).result == 0)
  {
  }

  /** While a window is registered, every other create is refused and
      destroying any other window changes nothing. */
  lemma SingleWindow(v: Video, a: WindowId, b: WindowId, eglLoaded: bool, allocOk: bool, made: Surface)
    requires a in v.windows && b in v.windows
    requires v.registered == Some(a) && a != b
    ensures CreateWindow(v, b, eglLoaded, allocOk, made) == Step(v, ErrorResult)
    ensures DestroyWindow(v, b) == Teardown(v, None)
  {
  }
}
